=== FILE: README.md ===
# CuraSerialPlugin command model and send engine, in Dafny

This project models the core of a Cura output-device plugin that prints over a
Wi-Fi serial bridge. It has two parts:

- **The G-code command model** (`GCodeLibrary/__init__.py`). This is a closed
  set of command classes: G0, G1, G28, G92, M21–M32, M104–M109, M117, M140,
  M800 and M801. Each class has a family letter and a numeric code, the
  option letters it accepts, an "ok command" flag and a recommended
  time-out. A command is read from a text line by `_parseLine`,
  `parseLine`, `parseOptions` and `identifyLine`. It is printed back by
  `line()`. Replies, the dry-run mode, line numbers, SD slots and free text
  change its state.
- **The communication engine** (`SerialWifiOutputDevice.py`). This covers:
  - line framing on the socket, and line assembly from received data;
  - the receive loop, which hands replies to the command in flight, caches
    the SD card status and times commands out;
  - the send loop. Injected commands go first, then the bulk queue. It
    applies dry-run and "ok"-mode, switches mode on M28/M29, and reports
    progress;
  - `requestWrite`, and `_print` with its fill of the bulk queue from the
    sliced job;
  - the SD-card variant, which initialises the card with up to three M21
    attempts and wraps the job in an upload to `temp.gco`.

Both loops are step functions over one immutable `State`. A time value
(`now`) and the data received are parameters of each step. Every exception
the source raises becomes a constructor of `Failure` (the command model) or
`Fault` (the engine). The command model and the send loop return it through
`Result`. The job path returns it as an `Option` beside what was done
before the raise: `Jobs.FillFrom` gives the entries queued so far and an
`Option<Failure>`, and `Jobs.PreFill` and `Jobs.Print` give the state
reached and an `Option<Fault>`. `Jobs.RequestWrite` returns a
`WriteOutcome` that names the refusal.

Files:

| file | content |
|---|---|
| `results.dfy` | `Option` and `Result` |
| `strings.dfy` | `str.split()`, `str.split("\n")`, Python's `int()` and `str()` on integers |
| `ordering.dfy` | `sorted()` on a set of option letters |
| `registry.dfy` | the command classes and their class-level constants |
| `commands.dfy` | the command record, its per-command operations and `line()` |
| `parse.dfy` | reading a command from text |
| `parse_facts.dfy` | the comment loop as written, and facts about the constructor |
| `line_facts.dfy` | what `line()` prints |
| `round_trip.dfy` | printing and reading back |
| `transport.dfy` | `send` and `receiveLine` framing |
| `engine.dfy` | the receive and send loops |
| `jobs.dfy` | `requestWrite`, `_print`, the fill, SD initialisation and the SD upload |

## Behaviour of note

The model keeps these behaviours of the code:

- **Numbered lines.** `identifyLine` returns nothing for any line whose
  first token starts with `N`. The constructor's default
  `verifyCheckSum=True` calls a method that is defined nowhere, so a line
  with a checksum fails to construct. Only `G1(line, False)` reads
  `N12 G1 X10 Y20 F1500 *37` into a G1 with line number 12
  (`ParseFacts.NumberedChecksummedLine`).
- **The SD upload.** Five wrapper commands are queued: M28 before the job,
  then M30, M29, M23 and M24. M30 (delete the file) is queued before M29
  (close the file).
- **Replies in "ok" mode.** The mode only forces the command's ok-command
  flag, so only the literal reply `ok` finishes a command
  (`Commands.ParseAnswer`).
- **The SD card status cache.** The cache is never cleared. A card reported
  ready by an earlier job lets a later initialisation pass without any new
  report (`Jobs.StaleCacheAccepted`).
- **Unused engine fields.** `_sent_lines_since_injected`,
  `_send_injected_every` and `queue_frequently` are declared but never used
  in the send loop, so the model has no interleaving rule for them.

## Model

| member | source | states |
|---|---|---|
| `Registry.FromCode` | GCodeLibrary/__init__.py:94-96 | a family letter and a code name at most one class, and the class found carries that family letter and that code |
| `Registry.FromCodeComplete` | GCodeLibrary/__init__.py:310-336 | every registered class is found again from its own family letter and code |
| `Registry.Lookup` | GCodeLibrary/__init__.py:531-535 | a class found by attribute lookup on the first token has exactly that token as its name |
| `Registry.LookupExact` | GCodeLibrary/__init__.py:531-535 | a token finds class `k` if and only if it is `k`'s class name, so `G01` or `g1` find nothing |
| `Registry.NameStartsWithFamily` | GCodeLibrary/__init__.py:262 | every class name is non-empty and starts with its family letter, which is G or M |
| `Commands.New` | GCodeLibrary/__init__.py:93-119 | a command built without a line has options of the shape its class declares, is an ok command, and is neither finished, timed out nor in dry run |
| `Commands.SdStatusOf` | GCodeLibrary/__init__.py:366-369 | the reply `echo:SD card ok` and only it reports a ready card; the two failure texts and only they report a failed card |
| `Commands.ParseAnswer` | GCodeLibrary/__init__.py:173-175 | a command becomes finished exactly when it already was, or it is an ok command and the reply is the literal `ok`; an M21 records the card status a reply carries; nothing else changes |
| `Commands.HasTimedOut` | GCodeLibrary/__init__.py:182-185 | the returned flag is the stored flag; a given state is stored and returned; with no state the command is unchanged |
| `Commands.FinishedByOk` | GCodeLibrary/__init__.py:173-180 | a command that is not an ok command has always finished; an unfinished ok command finishes on a reply if and only if the reply is `ok` |
| `Commands.IsOkCommand` | GCodeLibrary/__init__.py:121-126 | the returned flag is the stored flag, and a given mode overrides it; nothing else changes |
| `Commands.Reset` | GCodeLibrary/__init__.py:187-189 | after a reset the command is neither finished nor timed out, so it counts as finished exactly when it is not an ok command; only the two flags change, and an M21 keeps its card status |
| `Commands.SetLineNumber` | GCodeLibrary/__init__.py:236-245 | a number is accepted if and only if it has no `.` and `int()` reads it, and then it is stored; otherwise the error says which of the two checks failed |
| `Commands.SetDryRun` | GCodeLibrary/__init__.py:474-479 | the dry-run flag takes the mode; M104, M109 and M140 also set option S to 50 whatever the mode; other classes change nothing else |
| `Commands.SetSdSlot` | GCodeLibrary/__init__.py:377-380 | a given slot is stored as option P; with no slot, deleting the absent option S fails with a missing key; options that are not a dict fail |
| `Commands.SetText` | GCodeLibrary/__init__.py:503-504 | a free-text command keeps its shape and carries exactly the given text |
| `Parse.StripComment` | GCodeLibrary/__init__.py:129-134 | the kept tokens contain no comment marker; there is a comment exactly when some token is a marker; the line is the kept tokens, the first marker and the comment, in order |
| `Parse.StripCommentAsWritten` | GCodeLibrary/__init__.py:130-134 | the loop as written keeps a prefix of the tokens, and a line without a comment marker comes through whole with no comment |
| `Parse.CommentLoop` | GCodeLibrary/__init__.py:130-134 | from any position, the tokens kept are a prefix of those kept so far, and with no marker left nothing changes |
| `Parse.LettersOfMembers` | GCodeLibrary/__init__.py:156-160 | a letter is in the option-letter set if and only if some option token starts with it |
| `Parse.OptionsOfLastWins` | GCodeLibrary/__init__.py:164-167 | each letter maps to the value of the last token carrying it |
| `Parse.CheckLetters` | GCodeLibrary/__init__.py:156-162 | the options are accepted if and only if every letter is allowed, and then they form the letter dict; otherwise the error names exactly the disallowed letters |
| `Parse.ParseOptions` | GCodeLibrary/__init__.py:151-171 | a class without a declaration keeps no options; a free-text class keeps the token list; a letter class checks its letters plus its family letter |
| `Parse.ParsePrefixes` | GCodeLibrary/__init__.py:128-146 | the words left over are tokens; the comment is the one the marker strip finds; apart from comment, line number and checksum the command is as freshly built |
| `Parse.TakeChecksum` | GCodeLibrary/__init__.py:141-144 | a checksum is taken exactly when the last word starts with `*`; it is that word without the `*`, the other words stay in order, and nothing else changes |
| `Parse.PrefixesFail` | GCodeLibrary/__init__.py:128-146 | framing fails exactly when no token is left before the comment, or the first token starts with `N` and either its number is refused or nothing follows it; the error is the line-number error, else the missing token |
| `Parse.PrefixesFrame` | GCodeLibrary/__init__.py:136-146 | on success, a line number is taken exactly when the first token starts with `N`, and it is `int()` of the rest of that token; a checksum exactly when the last starts with `*`; the line is the number token, the words and the checksum token, in order |
| `Parse.ParseTokens` | GCodeLibrary/__init__.py:112-117 | a parsed command is of the requested class, well formed, fresh apart from what the line set, carries the line's comment, and has no checksum when verification was asked for |
| `Parse.TokensAssembled` | GCodeLibrary/__init__.py:112-117 | the parsed command is the framed command with the options `parseOptions` reads from the words after the class word; a framing error, no class word, a class word of the wrong family or an options error fails the line with that error; a line with a checksum fails as unverifiable exactly when verification is asked for |
| `Parse.Construct` | GCodeLibrary/__init__.py:105-117 | an empty line leaves the command unparsed; a blank non-empty line runs out of tokens; a parsed command is well formed and of the requested class |
| `Parse.Identify` | GCodeLibrary/__init__.py:524-538 | no command exactly for blank lines and lines whose first token does not start with G or M; an unknown name is an error naming the token; a known name gives exactly what its class constructor gives on the tokens, error for error; a command found is named by the first token, well formed and without a checksum |
| `ParseFacts.CommentLoopAsWritten` | GCodeLibrary/__init__.py:130-134 | the loop as written fails with a missing marker exactly when two tokens start a comment, and otherwise agrees with the corrected strip |
| `ParseFacts.TwoCommentsExample` | GCodeLibrary/__init__.py:130-134 | `G1 X10 ;a ;b` makes the loop as written fail, while the corrected strip keeps `G1 X10` with comment `;b` |
| `ParseFacts.FramedCons` | GCodeLibrary/__init__.py:136-146 | on a line whose first word starts with a family letter, only the comment and a trailing checksum come off, and the first word stays |
| `ParseFacts.OnlyFamilyChecked` | GCodeLibrary/__init__.py:297-299 | the constructor looks only at the family letter of the class word, so `M104("M105 S20")` builds an M104 |
| `ParseFacts.UnknownLetterRejected` | GCodeLibrary/__init__.py:155-162 | a line of a letter-option class with a letter its class does not accept is refused, and the error names exactly the letters not accepted |
| `ParseFacts.ChecksumRefused` | GCodeLibrary/__init__.py:524-538 | `identifyLine` fails as unverifiable on a known command word whose options are accepted and that ends in a checksum word, such as `G1 X10 *5` |
| `ParseFacts.NumberedChecksummedLine` | GCodeLibrary/__init__.py:524-538 | `N12 G1 X10 Y20 F1500 *37` gives no command to `identifyLine`, fails in `G1(line)` on the checksum, and in `G1(line, False)` gives line number 12, checksum 37 and options X10 Y20 F1500, printed back as `N12 G1 F1500 X10 Y20` |
| `LineFacts.LineNumbered` | GCodeLibrary/__init__.py:254-262 | the line starts with `N` if and only if the line number is asked for and the command has one |
| `LineFacts.LineName` | GCodeLibrary/__init__.py:254-262 | the class name follows the line-number prefix |
| `LineFacts.LineText` | GCodeLibrary/__init__.py:262-273 | a free-text command prints the prefix, its name, a space and the text; a command without options or holding a token list prints only the prefix and its name |
| `LineFacts.DryRunDropsExtrusion` | GCodeLibrary/__init__.py:264-269 | a dry-run line is the line of the same command without its E option |
| `LineFacts.DryRunWithoutExtrusion` | GCodeLibrary/__init__.py:267-268 | a command with no E option prints the same line in and out of dry run |
| `LineFacts.SortedOptionLine` | GCodeLibrary/__init__.py:254-269 | options set as X, Y, F print in key order, `G1 F1500 X10 Y20`, with `N12 ` in front when the line number is asked for |
| `LineFacts.SdSlotZeroLine` | GCodeLibrary/__init__.py:377-380 | an M21 given slot 0 prints `M21 P0` |
| `LineFacts.TextAndTokenLines` | GCodeLibrary/__init__.py:270-271 | a free-text command prints its name, a space and the text; one holding a token list prints only its name |
| `LineFacts.HeaterDryRunLine` | GCodeLibrary/__init__.py:474-479 | a fresh heater command in dry run, in either mode, holds S 50 and prints `<name> S50` |
| `RoundTrip.LineWords` | GCodeLibrary/__init__.py:254-273 | the printed line splits into the optional `N` word, the class name and one word per option in key order |
| `RoundTrip.DictWords` | GCodeLibrary/__init__.py:164-167 | reading back the option words a dict prints gives the same dict |
| `RoundTrip.ParseWords` | GCodeLibrary/__init__.py:293-302 | parsing the words of a printed line rebuilds the class, its options and, when printed, its line number |
| `RoundTrip.IdentifyLineRoundTrip` | GCodeLibrary/__init__.py:524-538 | `identifyLine` on a printed line without its number gives back the command's class and options |
| `RoundTrip.ConstructLineRoundTrip` | GCodeLibrary/__init__.py:93-119 | the class constructor on a printed line gives back the options and the line number, with or without verification |
| `RoundTrip.IdentifyTextRoundTrip` | GCodeLibrary/__init__.py:170-171 | a printed free-text command reads back as the list of its text's words |
| `Strings.Split` | GCodeLibrary/__init__.py:525 | splitting on white space gives non-empty tokens without white space |
| `Strings.SplitSpaced` | GCodeLibrary/__init__.py:525 | words joined with leading spaces split back into the same words |
| `Strings.SplitOn` | SerialWifiOutputDevice.py:330 | splitting on newline gives at least one piece, none contains a newline, and joining them with newlines gives the text back |
| `Strings.IntToString` | GCodeLibrary/__init__.py:259 | the decimal text of a line number is one word without a dot, and `int()` reads it back as the same number |
| `Strings.ParseInt` | GCodeLibrary/__init__.py:241-242 | `int()` accepts exactly digits, optionally after one sign; plain digits read as their decimal value; a leading `-` gives a value at most 0, anything else a value at least 0 |
| `Ordering.SortedChars` | GCodeLibrary/__init__.py:266 | the sorted keys are strictly increasing and are exactly the set's members |
| `Ordering.IncreasingUnique` | GCodeLibrary/__init__.py:266 | two strictly increasing sequences with the same members are equal, so sorted order is unique |
| `Transport.Frame` | SerialWifiOutputDevice.py:45-57 | the payload always holds a newline: the data itself when it has one, the data plus a newline otherwise |
| `Transport.ReceiveLine` | SerialWifiOutputDevice.py:73-81 | a line comes out exactly when the buffer holds a newline; it is the text before the first newline, and the buffer keeps what follows; otherwise the data is kept |
| `Transport.ReceiveLineUnique` | SerialWifiOutputDevice.py:78-81 | any split of the buffer at its first newline is the one `receiveLine` makes |
| `Transport.SendThenReceive` | SerialWifiOutputDevice.py:45-81 | a line sent without a newline arrives whole after whatever partial line was buffered, and the buffer empties |
| `Engine.Initial` | SerialWifiOutputDevice.py:93-112 | a new device is disconnected, with nothing in flight, empty queues, no recorded size, progress 0 and the queue unblocked |
| `Engine.EffectiveTimeout` | SerialWifiOutputDevice.py:203-207 | M109 and M800 and only they never time out; every other command uses the 10 s default |
| `Engine.CacheAfter` | SerialWifiOutputDevice.py:196-201 | the SD cache becomes ok or failed on the matching status line and is otherwise kept |
| `Engine.Deliver` | SerialWifiOutputDevice.py:190-201 | a received line goes to the command in flight, if any, as its reply, and then updates the SD cache; only that command and the cache change |
| `Engine.CheckTimeout` | SerialWifiOutputDevice.py:203-209 | a command with a send time times out once 10 s have passed, M109 and M800 never; with no or a zero send time nothing changes; only the flag can change |
| `Engine.ReceiveStep` | SerialWifiOutputDevice.py:186-209 | one receive-loop pass advances the buffer as `receiveLine` does; a non-empty line goes to the command in flight and to the SD cache, an empty or missing one to neither; the queues, wire, progress, mode and send time stay; nothing happens when disconnected |
| `Engine.SendEntry` | SerialWifiOutputDevice.py:236-247 | a bulk command is sent in dry run, as its printed line with the number; in ok mode it is forced to be an ok command unless it is M28 or M29; M28 enters ok mode and M29 leaves it |
| `Engine.SendStep` | SerialWifiOutputDevice.py:213-256 | one send-loop pass waits while a command is in flight or when disconnected, and fails only when a bulk entry is taken with a recorded queue size of 0 |
| `Engine.SendInjectedFirst` | SerialWifiOutputDevice.py:221-225 | when idle, an injected command is sent before any bulk entry, as is, and the bulk queue and progress stay |
| `Engine.SendBulkFront` | SerialWifiOutputDevice.py:228-251 | with no injected command and the queue unblocked, the front bulk entry is taken; an empty entry sends nothing; progress follows the remaining count |
| `Engine.SendIdleForgets` | SerialWifiOutputDevice.py:252-256 | with nothing to send, or the queue blocked, the recorded size and start time are cleared and nothing else changes |
| `Engine.Inject` | SerialWifiOutputDevice.py:260-261 | injecting appends the command to the injected queue and changes nothing else |
| `Engine.Progress` | SerialWifiOutputDevice.py:250 | progress times the recorded size is 100 times the number of entries taken |
| `Engine.ProgressBounds` | SerialWifiOutputDevice.py:250 | progress lies between 0 and 100; it is 0 with the whole queue left and 100 with none |
| `Engine.ProgressIncreases` | SerialWifiOutputDevice.py:250 | taking one more entry strictly raises progress |
| `Engine.SendStepValid` | SerialWifiOutputDevice.py:213-256 | from a state with progress in range and the queue within its recorded size, a send pass never fails and keeps both facts |
| `Engine.ReceiveStepValid` | SerialWifiOutputDevice.py:186-209 | the receive loop never touches progress, the queue or the recorded size, so it keeps progress in range and the queue within its recorded size |
| `Engine.DrainInOrder` | SerialWifiOutputDevice.py:228-251 | with nothing injected, `k` acknowledged rounds send the first `k` bulk entries front to back, each once, and progress reflects what is left |
| `Engine.DrainCompletes` | SerialWifiOutputDevice.py:248-250 | acknowledging every entry of a recorded queue empties it and brings progress to 100 |
| `Engine.TimeoutMonotone` | SerialWifiOutputDevice.py:207-209 | a command timed out at one moment is timed out at every later moment |
| `Engine.ReceiveAcknowledges` | SerialWifiOutputDevice.py:186-194 | a received `ok` line settles the command in flight and leaves the rest of the data in the buffer |
| `Jobs.RequestWrite` | SerialWifiOutputDevice.py:266-291 | a job starts exactly when progress is 0, no job is being prepared and the device is connected; the busy refusal happens exactly when progress is not 0 |
| `Jobs.Pieces` | SerialWifiOutputDevice.py:329-332 | every piece taken from the job is non-empty and holds no newline |
| `Jobs.NonEmpty` | SerialWifiOutputDevice.py:331-332 | the filter keeps exactly the non-empty lines, and no more lines than it is given |
| `Jobs.NonEmptyGrows` | SerialWifiOutputDevice.py:331-332 | the filter keeps an entry's non-empty lines in their order: one more line adds itself when it is non-empty and nothing otherwise |
| `Jobs.PiecesGrow` | SerialWifiOutputDevice.py:329-332 | the pieces of a job are those of its earlier entries followed by the non-empty lines of the next entry, in order |
| `Jobs.FillFrom` | SerialWifiOutputDevice.py:329-337 | the queue holds the `identifyLine` result of each piece in order; an error stops the fill at the piece that raised it |
| `Jobs.FillResultUnique` | SerialWifiOutputDevice.py:329-337 | the pieces determine the queued entries and the failure |
| `Jobs.FillExtend` | SerialWifiOutputDevice.py:329-337 | once a piece fails, later pieces do not change the fill |
| `Jobs.FillPieces` | SerialWifiOutputDevice.py:330-337 | filling the pieces of one job entry extends a fill of the earlier pieces |
| `Jobs.FillQueue` | SerialWifiOutputDevice.py:322-337 | the loop over job entries and their lines yields the fill of all pieces |
| `Jobs.FileCommand` | GCodeLibrary/__init__.py:440-441 | a file command is well formed and names `temp.gco` |
| `Jobs.SdWrap` | SerialWifiOutputDevice.py:417-450 | the SD fill is M28 first, then the job's entries, then M30, M29, M23 and M24; a failed fill stops after the entries identified |
| `Jobs.DeliverAll` | SerialWifiOutputDevice.py:186-201 | replies reach only the command in flight and the SD cache; replies without a card status change neither the cache nor the card flag |
| `Jobs.Exchange` | SerialWifiOutputDevice.py:260-264 | an injected command with `wait`, of a class that can time out, goes out once as its printed line and is settled when the wait ends |
| `Jobs.ExchangeSendsInjected` | SerialWifiOutputDevice.py:221-225 | when idle, the send loop takes an injected command, sends it and records the send time |
| `Jobs.TryOnce` | SerialWifiOutputDevice.py:405-410 | one attempt sends exactly the reset M21 and, when the card status stays unknown, a fresh M29 after it; silent replies change no status |
| `Jobs.InitLoop` | SerialWifiOutputDevice.py:399-410 | the loop stops once the card is ready or after three attempts, and each attempt sends one or two commands |
| `Jobs.SdInit` | SerialWifiOutputDevice.py:401-402 | the initialisation command is an M21 with slot P 0 and no card status yet |
| `Jobs.SdInitIsSetSdSlot` | SerialWifiOutputDevice.py:401-402 | that command is what `setSdSlot(0)` makes of a fresh M21 |
| `Jobs.PreFill` | SerialWifiOutputDevice.py:397-415 | the SD pre-fill keeps the state the attempt loop reaches, whether it passes or fails; it fails, with the SD card problem, exactly when the cache does not say ready; the queues, progress and connection stay, and between one and six commands are sent |
| `Jobs.Print` | SerialWifiOutputDevice.py:293-317 | a job that fills without error leaves the queue unblocked with its size recorded; a pre-fill failure leaves an empty queue and keeps the commands the pre-fill sent; a fill failure leaves the queue blocked |
| `Jobs.DirectPrintQueue` | SerialWifiOutputDevice.py:322-341 | a direct print queues the fill of the job's pieces, and any failure is the fill's |
| `Jobs.SdPrintQueue` | SerialWifiOutputDevice.py:417-450 | a successful SD print queues the job wrapped for upload, five entries more than the pieces |
| `Jobs.PreFillFailureEndsPrint` | SerialWifiOutputDevice.py:300-305 | when the card does not come up, the print ends in the state the attempt loop reached on an emptied queue, with the SD card problem |
| `Jobs.PrintValid` | SerialWifiOutputDevice.py:293-341 | printing keeps progress in range and the queue within its recorded size |
| `Jobs.JobRunsToCompletion` | SerialWifiOutputDevice.py:266-272 | after a direct print, acknowledging every entry sends all queued commands in order; progress is then 100, so `requestWrite` refuses the next job as busy |
| `Jobs.SilentStep` | SerialWifiOutputDevice.py:404-410 | with silent replies, one pass of the loop keeps the cache and the M21's card status, sends two commands when the status is unknown, and leaves the rest of the loop to run from the next attempt |
| `Jobs.SilentPrinter` | SerialWifiOutputDevice.py:404-410 | a printer that never reports on the card leaves the cache and the M21's card status alone through every remaining attempt |
| `Jobs.SilentWire` | SerialWifiOutputDevice.py:404-410 | with silent replies and no card status, every remaining attempt is made and sends two commands |
| `Jobs.SilentPreFill` | SerialWifiOutputDevice.py:404-413 | with silent replies the pre-fill succeeds if and only if the cache already said ready |
| `Jobs.CardInWriteMode` | SerialWifiOutputDevice.py:404-413 | a printer answering every command with `ok` and nothing else, as one in write mode does, gets three M21 and three M29; the SD print then ends with an empty queue, the SD card problem, the six commands sent and the cache still unknown |
| `Jobs.ReadyReply` | SerialWifiOutputDevice.py:197-198 | an M21 answered with `echo:SD card ok` marks the card ready in the command and in the cache |
| `Jobs.CardReadyAtOnce` | SerialWifiOutputDevice.py:404-413 | a card that reports ready on the first attempt costs exactly one M21 |
| `Jobs.StaleCacheAccepted` | SerialWifiOutputDevice.py:412-413 | with the cache already ready, the pre-fill passes even when no attempt is answered |

## Left out

- Threads and timing: the receive, send and print threads are step functions. Their interleaving is not modelled. The busy-wait of `injectCommand(wait=True)` is one exchange whose replies are a parameter (`Jobs.Attempt`).
- Sockets: `recv`, its UTF-8 decoding, and the exception handling in `send` and `receive` that drops the connection are left out, because they are I/O.
- Transport.ReceiveLine: takes received data of any length. The source reads one character per call; this is the same function applied to a one-character chunk.
- Connection set-up and tear-down (`connect`, `disconnect`, the connect thread), the Qt signals, messages, `setProgress`'s signal and `_updateJobState` are left out, because they are UI and platform code.
- The discovery plugin and the power-management module are outside the core.
- The checksum algorithm: `verifyCheckSum` is not defined in the source. A checksum with verification requested is therefore the error `ChecksumUnverifiable`, and no checksum value is ever checked.
- Python `int()` accepts underscores and non-ASCII digits. The model reads only an optional sign and ASCII digits.
- `GCodeFlavors`, the remaining `GCodeOptions` names and the `__main__` block are not used by the core.
- The race between unblocking the queue and recording its size in `_print_post_fill_gcode` is not modelled. The size is recorded together with the unblocking.
- Commands.SetDryRun: states the heater rule only for dict options. Free-text heater options cannot occur: no heater class is free-text.
- Jobs.Exchange: states that the wait ends with the command settled, and does not model how long the wait takes. It is defined only for commands that can time out: for M109 and M800 the wait of `injectCommand` has no end when no reply comes, and the model has no exchange that does not end.
- Engine.Progress: Python floats are read as exact reals, both the progress at SerialWifiOutputDevice.py:250 and the `time.time()` stamps compared at 207-208. So `Engine.Progress`'s equation, and the 0 that `Engine.ProgressBounds` gives for a full queue, hold only up to rounding: size 3 with 2 left gives 33.33333333333333 in floats, and size 11 with 11 left gives about -1.4e-14. The send loop only computes progress after taking an entry, where for any realistic queue size the float value lies in (0, 100], and it is exactly 100.0 once the queue is empty, so no decision depends on the rounding.
- Jobs.PreFill: bounds the number of commands it sends; `Jobs.TryOnce` lists the commands of each attempt, and `Jobs.CardInWriteMode`, `Jobs.CardReadyAtOnce` and `Jobs.SilentWire` give the exact counts in their cases.
- Jobs.TryOnce: sends the M21 at the start of every attempt. In the source, an attempt that leaves the card status failed injects no M29, so the same M21 object is still the command in flight. The next `reset()` makes it unsettled again, and the send loop waits on it until the receive loop times it out, about 10 s later. Only then does the retried M21 go out, so the lines an attempt sees may answer the earlier send. The model leaves out that stall. It takes the lines of each attempt as a free parameter (`Jobs.Attempt`), and every such order of replies is one of its inputs.
- Parse.ParsePrefixes: uses the corrected comment strip (`Parse.StripComment`). As written, a line with two tokens starting with `;` raises `ValueError`; `identifyLine` then raises, and `_print` stops with the queue blocked. `ParseFacts.CommentLoopAsWritten` states that behaviour (see Findings).
- `_sent_lines_since_injected`, `_send_injected_every`, `queue_frequently`, and the start-time logging of `queue_gcode_begin`: the send loop reads none of them for a decision.
- `identifyLine` compares the first character with `is`. The model reads this as equality, which is what CPython gives for one-character strings.
- `getCheckSum`, `hasOption`, `getOption`, `removeOption` and the other getters are left out. No modelled operation calls them.

## Findings

| source | as written | input that shows it | evidently intended | confidence | as-written member | corrected member |
|---|---|---|---|---|---|---|
| GCodeLibrary/__init__.py:130-134 | the comment loop iterates over the original tokens but calls `line.index` on the already truncated list | `G1 X10 ;a ;b` (any comment containing a second `;` word) raises `ValueError` | everything from the first marker token on is the comment, and the rest of the line is parsed | not executed | `ParseFacts.CommentLoopAsWritten` | `Parse.StripComment` |

=== FILE: commands.dfy ===
/** One G-code command as `CodeCommand` keeps it: the registered class, the
    options, the optional line-number / checksum / comment prefixes and
    suffixes taken off a parsed line, and the acknowledgement flags the
    communication engine reads and writes. */
module Commands {

  import opened Results
  import opened Strings
  import opened Ordering
  import opened Registry

  /** The four shapes `self.options` takes:
      - `Absent`: `None`, for classes that declare no option set (G28, M31);
      - `Dict`: option letter to value, for classes that declare a letter list,
        and also the initial `{}` of free-text classes;
      - `Text`: the string stored by `setFile`/`setText`;
      - `Tokens`: the raw token list a parsed free-text command keeps (`line()` prints none of it). */
  datatype Options =
    | Absent
    | Dict(entries: map<char, string>)
    | Text(text: string)
    | Tokens(tokens: seq<string>)

  datatype Command = Command(
    kind: Kind,
    options: Options,
    lineNumber: Option<int>,
    checksum: Option<string>,
    comment: Option<seq<string>>,
    okCommand: bool,
    dryRun: bool,
    finished: bool,
    timedOut: bool,
    /** `sd_card_initialized`, only ever set on M21. */
    sdCard: Option<bool>)

  /** Everything that goes wrong in the command model, one constructor per
      exception the source raises. */
  datatype Failure =
    | MissingToken                  // IndexError: the token list ran out
    | MarkerNotFound                // ValueError from `list.index` in the comment loop
    | FractionalLineNumber          // setLineNumber: "." in the number
    | NotAnInteger                  // int() refused the line number
    | WrongFamily                   // first token does not start with the family letter
    | UnknownOptions(letters: set<char>)
    | UnknownCommand(name: string)  // getattr on the registry failed
    | ChecksumUnverifiable          // checksum present and verification requested
    | MissingKey(key: char)         // KeyError from `del`
    | NotADict                      // item assignment on options that are not a dict

  /** The options shape a class's declaration allows. */
  predicate WellFormed(c: Command) {
    && (c.kind != M21 ==> c.sdCard.None?)
    && match c.kind.Decl()
       case Undeclared => c.options.Absent?
       case Letters(_) => c.options.Dict? && c.options.entries.Keys <= AllowedKeys(c.kind)
       case FreeText => c.options == Dict(map[]) || c.options.Text? || c.options.Tokens?
  }

  /** A command built without a line: every registered class is an "ok" command. */
  function New(k: Kind): (c: Command)
    ensures WellFormed(c) && c.kind == k
    ensures c.okCommand && !c.finished && !c.timedOut && !c.dryRun
  {
    Command(k, if k.Decl().Undeclared? then Absent else Dict(map[]),
            None, None, None, true, false, false, false, None)
  }

  const SdReadyLine := "echo:SD card ok"
  const SdInitFailLine := "echo:SD init fail"
  const SdVolumeFailLine := "Error:volume.init failed"

  /** What a status line says about the SD card: ready, failed, or nothing. */
  function SdStatusOf(line: string): (r: Option<bool>)
    ensures r == Some(true) <==> line == SdReadyLine
    ensures r == Some(false) <==> line == SdInitFailLine || line == SdVolumeFailLine
  {
    if line == SdReadyLine then Some(true)
    else if line == SdInitFailLine || line == SdVolumeFailLine then Some(false)
    else None
  }

  /** `parseAnswer`, including the M21 override that records the card status. */
  function ParseAnswer(c: Command, answer: string): (r: Command)
    ensures r.finished <==> c.finished || (c.okCommand && answer == "ok")
    ensures c.kind == M21 && SdStatusOf(answer).Some? ==> r.sdCard == SdStatusOf(answer)
    ensures c.kind != M21 || SdStatusOf(answer).None? ==> r.sdCard == c.sdCard
    ensures r == c.(finished := r.finished, sdCard := r.sdCard)
  {
    var finished := if c.okCommand && answer == "ok" then true else c.finished;
    var sd :=
      if c.kind != M21 then c.sdCard
      else if answer == "echo:SD card ok" then Some(true)
      else if answer == "echo:SD init fail" || answer == "Error:volume.init failed" then Some(false)
      else c.sdCard;
    c.(finished := finished, sdCard := sd)
  }

  /** `hasFinished`: commands that wait for no "ok" count as finished at once. */
  predicate HasFinished(c: Command) {
    if !c.okCommand then true else c.finished
  }

  /** A command that waits for no "ok" has finished from the start; one that
      waits and has not finished finishes on the reply "ok" and on no other. */
  lemma FinishedByOk(c: Command, answer: string)
    ensures !c.okCommand ==> HasFinished(c)
    ensures c.okCommand && !c.finished ==> (HasFinished(ParseAnswer(c, answer)) <==> answer == "ok")
  {
  }

  /** The condition both the send loop and `injectCommand(wait=True)` wait for. */
  predicate Settled(c: Command) {
    HasFinished(c) || c.timedOut
  }

  /** `hasTimedOut(state)`: stores `state` when one is given, and returns the flag. */
  function HasTimedOut(c: Command, state: Option<bool>): (r: (Command, bool))
    ensures r.1 == r.0.timedOut
    ensures state.Some? ==> r.1 == state.value
    ensures state.None? ==> r.0 == c
    ensures r.0 == c.(timedOut := r.0.timedOut)
  {
    var c' := if state.Some? then c.(timedOut := state.value) else c;
    (c', c'.timedOut)
  }

  /** `isOkCommand(mode)`: stores `mode` when one is given, and returns the flag. */
  function IsOkCommand(c: Command, mode: Option<bool>): (r: (Command, bool))
    ensures r.1 == r.0.okCommand
    ensures mode.Some? ==> r.1 == mode.value
    ensures r.0 == c.(okCommand := r.1)
  {
    var c' := if mode.Some? then c.(okCommand := mode.value) else c;
    (c', c'.okCommand)
  }

  /** `reset`: clears the two acknowledgement flags and nothing else. */
  function Reset(c: Command): (r: Command)
    ensures !r.finished && !r.timedOut
    ensures HasFinished(r) <==> !c.okCommand
    ensures r.(finished := c.finished, timedOut := c.timedOut) == c
  {
    c.(finished := false, timedOut := false)
  }

  /** `setLineNumber` applied to the text after the `N`. */
  function SetLineNumber(c: Command, number: string): (r: Result<Command, Failure>)
    ensures r.Ok? <==> '.' !in number && ParseInt(number).Some?
    ensures r.Ok? ==> r.value == c.(lineNumber := ParseInt(number))
    ensures r.Err? ==> r.error == (if '.' in number then FractionalLineNumber else NotAnInteger)
  {
    if '.' in number then Err(FractionalLineNumber)
    else match ParseInt(number)
      case None => Err(NotAnInteger)
      case Some(n) => Ok(c.(lineNumber := Some(n)))
  }

  /** `setDryRun`; M104, M109 and M140 also set their temperature option S to 50,
      whatever mode is passed. */
  function SetDryRun(c: Command, mode: bool): (r: Command)
    ensures r.dryRun == mode
    ensures !c.kind.IsHeater() ==> r == c.(dryRun := mode)
    ensures c.kind.IsHeater() && c.options.Dict? ==>
              r == c.(dryRun := mode, options := Dict(c.options.entries['S' := "50"]))
  {
    var c' := c.(dryRun := mode);
    if c.kind.IsHeater() && c.options.Dict? then
      c'.(options := Dict(c.options.entries['S' := "50"]))
    else c'
  }

  /** `setSdSlot` of M21 and M22. With no slot the source deletes option `S`
      (not `P`) and then stores `None` under `P`. */
  function SetSdSlot(c: Command, slot: Option<int>): (r: Result<Command, Failure>)
    requires c.kind == M21 || c.kind == M22
    ensures !c.options.Dict? ==> r == Err(NotADict)
    ensures slot.Some? && c.options.Dict? ==>
              r == Ok(c.(options := Dict(c.options.entries['P' := IntToString(slot.value)])))
    ensures slot.None? && c.options.Dict? && 'S' !in c.options.entries ==> r == Err(MissingKey('S'))
  {
    match c.options
    case Dict(m) =>
      if slot.Some? then Ok(c.(options := Dict(m['P' := IntToString(slot.value)])))
      else if 'S' in m then Ok(c.(options := Dict((m - {'S'})['P' := "None"])))
      else Err(MissingKey('S'))
    case _ => Err(NotADict)
  }

  /** `setFile` (M23, M28, M29, M30) and `setText` (M117). */
  function SetText(c: Command, text: string): (r: Command)
    requires c.kind.Decl().FreeText?
    ensures WellFormed(c) ==> WellFormed(r)
    ensures r == c.(options := Text(text))
  {
    c.(options := Text(text))
  }

  /** The option suffixes of a dict, in the order of `ks`, skipping `E` in dry-run mode. */
  function EntryWords(m: map<char, string>, ks: seq<char>, dryRun: bool): seq<string>
    requires forall k :: k in ks ==> k in m
  {
    if |ks| == 0 then []
    else if dryRun && ks[0] == 'E' then EntryWords(m, ks[1..], dryRun)
    else [[ks[0]] + m[ks[0]]] + EntryWords(m, ks[1..], dryRun)
  }

  function OptionsText(o: Options, dryRun: bool): string {
    match o
    case Dict(m) => Spaced(EntryWords(m, SortedChars(m.Keys), dryRun))
    case Text(t) => " " + t
    case Absent => ""
    case Tokens(_) => ""
  }

  /** The `N` word of a numbered line. */
  function LineNumberWord(n: int): string {
    "N" + IntToString(n)
  }

  function LinePrefix(c: Command, withLineNumber: bool): string {
    if c.lineNumber.Some? && withLineNumber then LineNumberWord(c.lineNumber.value) + " " else ""
  }

  /** `line(with_line_number)`: the text sent to the printer. */
  function Line(c: Command, withLineNumber: bool): string {
    LinePrefix(c, withLineNumber) + (c.kind.Name() + OptionsText(c.options, c.dryRun))
  }

}

=== FILE: engine.dfy ===
/** The decision logic of `SerialOutputDevice`'s receive and send threads,
    one loop iteration at a time: each iteration is a pure step over an
    explicit state record, with the clock and the received text passed in. */
module Engine {

  import opened Results
  import opened Strings
  import opened Registry
  import opened Commands
  import opened Transport

  /** `_receive_mode`: "normal", or "ok" while a file is being written to the SD card. */
  datatype Mode = Normal | OkOnly

  /** `_sd_card_status`: None, "ok" or "failed". */
  datatype SdCache = Unknown | CardOk | CardFailed

  /** What stops a thread of the engine: an exception it does not catch. */
  datatype Fault =
    | DivisionByZero               // progress with a recorded queue size of 0
    | Unparsable(failure: Failure) // `identifyLine` raised while filling the queue
    | SdCardProblem                // "Problems initializing SD card"

  datatype State = State(
    connected: bool,
    /** The transport's receive buffer and the payloads handed to the socket. */
    buffer: string,
    wire: seq<string>,
    /** `_sent_command` and `_sent_command_time`. */
    current: Option<Command>,
    sentAt: Option<real>,
    mode: Mode,
    sdCache: SdCache,
    /** `queue_injected`, first to be sent in front. */
    injected: seq<Command>,
    /** `queue_gcode`: `identifyLine` results, so entries may be `None`. */
    queue: seq<Option<Command>>,
    queueSize: Option<nat>,
    queueBegin: Option<real>,
    blocked: bool,
    progress: real)

  /** `_send_timeout`, in seconds. */
  const DefaultTimeout: int := 10

  /** The state `__init__` leaves, before any connection. */
  function Initial(): (s: State)
    ensures !s.connected && s.current.None? && s.progress == 0.0
    ensures s.injected == [] && s.queue == [] && s.queueSize.None? && !s.blocked
  {
    State(false, "", [], None, None, Normal, Unknown, [], [], None, None, false, 0.0)
  }

  /** The time-out `_receive` applies: `recommendedTimeOut` when it is set and
      non-zero, else the 10 s default. -1 means "never". */
  function EffectiveTimeout(k: Kind): (t: int)
    ensures t == -1 <==> k == M109 || k == M800
    ensures t != -1 ==> t == DefaultTimeout
  {
    match k.TimeoutHint()
    case Some(h) => if h != 0 then h else DefaultTimeout
    case None => DefaultTimeout
  }

  /** The SD status cache after a received line. */
  function CacheAfter(cache: SdCache, line: string): (r: SdCache)
    ensures SdStatusOf(line) == Some(true) ==> r == CardOk
    ensures SdStatusOf(line) == Some(false) ==> r == CardFailed
    ensures SdStatusOf(line).None? ==> r == cache
  {
    if line == "echo:SD card ok" then CardOk
    else if line == "echo:SD init fail" || line == "Error:volume.init failed" then CardFailed
    else cache
  }

  /** A non-empty received line: first the command in flight parses it, then
      the SD status cache is updated. Nothing else changes. */
  function Deliver(s: State, line: string): (r: State)
    ensures r.current.Some? <==> s.current.Some?
    ensures s.current.Some? ==> r.current.value == ParseAnswer(s.current.value, line)
    ensures r.sdCache == CacheAfter(s.sdCache, line)
    ensures r == s.(current := r.current, sdCache := r.sdCache)
  {
    var current := match s.current
      case Some(c) => Some(ParseAnswer(c, line))
      case None => None;
    s.(current := current, sdCache := CacheAfter(s.sdCache, line))
  }

  /** The time-out check at the end of each `_receive` iteration. It applies
      only with a command in flight and a truthy send time; the command is then
      marked timed out once the elapsed time reaches its time-out, unless the
      time-out is -1. */
  function CheckTimeout(s: State, now: real): (r: State)
    ensures r == s.(current := r.current)
    ensures r.current.Some? <==> s.current.Some?
    ensures s.current.Some? ==> r.current.value == s.current.value.(timedOut := r.current.value.timedOut)
    ensures s.current.Some? && s.sentAt.Some? && s.sentAt.value != 0.0
            && s.current.value.kind != M109 && s.current.value.kind != M800 ==>
              (r.current.value.timedOut <==> s.current.value.timedOut || now - s.sentAt.value >= 10.0)
    ensures s.current.Some? && (s.current.value.kind == M109 || s.current.value.kind == M800) ==> r == s
    ensures s.sentAt.None? || s.sentAt == Some(0.0) ==> r == s
  {
    match s.current
    case Some(c) =>
      if s.sentAt.Some? && s.sentAt.value != 0.0 then
        var timeout := EffectiveTimeout(c.kind);
        if timeout != -1 && (timeout as real) <= now - s.sentAt.value then
          s.(current := Some(HasTimedOut(c, Some(true)).0))
        else s
      else s
    case None => s
  }

  /** One iteration of `_receive`: read what the transport has, deliver a
      complete non-empty line, then check the time-out. The loop runs only
      while connected. */
  function ReceiveStep(s: State, chunk: string, now: real): (r: State)
    ensures !s.connected ==> r == s
    ensures r.queue == s.queue && r.injected == s.injected && r.wire == s.wire
    ensures r.progress == s.progress && r.queueSize == s.queueSize && r.blocked == s.blocked
    ensures r.mode == s.mode && r.sentAt == s.sentAt && r.connected == s.connected
    ensures r.current.Some? <==> s.current.Some?
    ensures s.connected ==> r.buffer == ReceiveLine(s.buffer, chunk).1
    // a non-empty line goes to the command in flight and to the SD cache
    ensures s.connected ==>
              var got := ReceiveLine(s.buffer, chunk).0;
              r.sdCache == (if got.Some? && got.value != "" then CacheAfter(s.sdCache, got.value) else s.sdCache)
    ensures s.connected && s.current.Some? ==>
              var got := ReceiveLine(s.buffer, chunk).0;
              var c := s.current.value;
              r.current.value.(timedOut := c.timedOut)
              == (if got.Some? && got.value != "" then ParseAnswer(c, got.value) else c)
  {
    if !s.connected then s
    else
      var (line, buffer) := ReceiveLine(s.buffer, chunk);
      var s1 := s.(buffer := buffer);
      var s2 := if line.Some? && line.value != "" then Deliver(s1, line.value) else s1;
      CheckTimeout(s2, now)
  }

  /** No new command is taken while the one in flight is neither finished
      nor timed out. */
  predicate Busy(s: State) {
    s.current.Some? && !Settled(s.current.value)
  }

  /** `100 - 100 / size * remaining`, what `setProgress` receives: the share
      of the recorded queue already taken, as a percentage. */
  function Progress(size: nat, remaining: nat): (p: real)
    requires size > 0
    ensures p * (size as real) == 100.0 * ((size - remaining) as real)
  {
    100.0 - 100.0 / (size as real) * (remaining as real)
  }

  /** Sending a popped entry: dry-run marking, forcing the "ok" handshake in
      "ok" mode (except for M28 and M29), and the mode switch M28 and M29 make. */
  function SendEntry(s: State, c: Command, now: real): (r: State)
    ensures r.current.Some? && r.current.value.kind == c.kind && r.current.value.dryRun
    ensures r.wire == s.wire + [Frame(Line(r.current.value, true))]
    ensures r.sentAt == Some(now)
    ensures c.kind == M28 ==> r.mode == OkOnly
    ensures c.kind == M29 ==> r.mode == Normal
    ensures c.kind != M28 && c.kind != M29 ==> r.mode == s.mode
    ensures s.mode == OkOnly && c.kind != M28 && c.kind != M29 ==> r.current.value.okCommand
    ensures s.mode == Normal || c.kind == M28 || c.kind == M29 ==> r.current.value.okCommand == c.okCommand
    ensures r.current.value == SetDryRun(c, true).(okCommand := r.current.value.okCommand)
    ensures && r.connected == s.connected && r.buffer == s.buffer && r.sdCache == s.sdCache
            && r.injected == s.injected && r.queue == s.queue && r.queueSize == s.queueSize
            && r.queueBegin == s.queueBegin && r.blocked == s.blocked && r.progress == s.progress
  {
    var c1 := SetDryRun(c, true);
    var c2 := if s.mode == OkOnly && c.kind != M28 && c.kind != M29 then IsOkCommand(c1, Some(true)).0 else c1;
    var mode := if c.kind == M28 then OkOnly else if c.kind == M29 then Normal else s.mode;
    s.(current := Some(c2), wire := s.wire + [Frame(Line(c2, true))], mode := mode, sentAt := Some(now))
  }

  /** One iteration of `_send`. Its only failure is the division by a
      recorded queue size of 0. */
  function SendStep(s: State, now: real): (r: Result<State, Fault>)
    // the loop runs only while connected, and waits while a command is in flight
    ensures !s.connected || Busy(s) ==> r == Ok(s)
    ensures r.Err? <==> && s.connected && !Busy(s) && |s.injected| == 0 && |s.queue| > 0
                        && !s.blocked && s.queueSize == Some(0)
    ensures r.Ok? ==> r.value.connected == s.connected && r.value.buffer == s.buffer
                      && r.value.sdCache == s.sdCache && r.value.blocked == s.blocked
  {
    if !s.connected || Busy(s) then Ok(s)
    else if |s.injected| > 0 then
      var c := s.injected[0];
      Ok(s.(current := Some(c), injected := s.injected[1..],
            wire := s.wire + [Frame(Line(c, true))], sentAt := Some(now)))
    else if |s.queue| > 0 && !s.blocked then
      var begin := if s.queueSize == Some(|s.queue|) then Some(now) else s.queueBegin;
      var s1 := s.(queue := s.queue[1..], queueBegin := begin);
      var s2 := match s.queue[0]
        case None => s1.(current := None)
        case Some(c) => SendEntry(s1, c, now);
      match s.queueSize
      case None => Ok(s2)
      case Some(n) =>
        if n == 0 then Err(DivisionByZero)
        else Ok(s2.(progress := Progress(n, |s1.queue|)))
    else Ok(s.(queueSize := None, queueBegin := None))
  }
  /** Injected commands go first, unchanged (no dry-run marking), and leave
      the bulk queue and the progress alone. */
  lemma SendInjectedFirst(s: State, now: real)
    requires s.connected && !Busy(s) && |s.injected| > 0
    ensures SendStep(s, now).Ok?
    ensures var r := SendStep(s, now).value;
            && r.current == Some(s.injected[0]) && r.injected == s.injected[1..]
            && r.wire == s.wire + [Frame(Line(s.injected[0], true))] && r.sentAt == Some(now)
            && r.queue == s.queue && r.progress == s.progress && r.mode == s.mode
  {
  }

  /** Otherwise the bulk queue, when not blocked, is popped from the front:
      a `None` entry only clears the command in flight, a command is sent
      dry-run marked, and the progress follows the remaining length. */
  lemma SendBulkFront(s: State, now: real)
    requires s.connected && !Busy(s) && |s.injected| == 0 && |s.queue| > 0 && !s.blocked
    requires s.queueSize != Some(0)
    ensures SendStep(s, now).Ok?
    ensures var r := SendStep(s, now).value;
            && r.queue == s.queue[1..] && r.injected == s.injected
            && (s.queue[0].None? ==> r.current.None? && r.wire == s.wire && r.mode == s.mode)
            && (s.queue[0].Some? ==>
                  && r.current.Some? && r.current.value.dryRun
                  && r.current.value.kind == s.queue[0].value.kind
                  && r.current.value == SetDryRun(s.queue[0].value, true).(okCommand := r.current.value.okCommand)
                  && r.wire == s.wire + [Frame(Line(r.current.value, true))]
                  && r.sentAt == Some(now))
            && (s.queueSize.Some? ==> r.progress == Progress(s.queueSize.value, |s.queue| - 1))
            && (s.queueSize.None? ==> r.progress == s.progress)
  {
  }

  /** With nothing to send, the recorded size and start time are forgotten
      and nothing else changes. */
  lemma SendIdleForgets(s: State, now: real)
    requires s.connected && !Busy(s) && |s.injected| == 0 && (|s.queue| == 0 || s.blocked)
    ensures SendStep(s, now) == Ok(s.(queueSize := None, queueBegin := None))
  {
  }


  /** `injectCommand(command)`: queued behind the injected commands already waiting. */
  function Inject(s: State, c: Command): (r: State)
    ensures r.injected == s.injected + [c]
    ensures r == s.(injected := r.injected)
  {
    s.(injected := s.injected + [c])
  }

  /** The states the engine keeps: progress within [0, 100], and a recorded
      queue size that bounds the unblocked queue. */
  predicate Valid(s: State) {
    && 0.0 <= s.progress <= 100.0
    && (s.queueSize.Some? && !s.blocked ==> |s.queue| <= s.queueSize.value)
  }

  /** Progress lies in [0, 100] while the remaining count is within the size. */
  lemma ProgressBounds(size: nat, remaining: nat)
    requires 0 < size && remaining <= size
    ensures 0.0 <= Progress(size, remaining) <= 100.0
    ensures remaining == 0 ==> Progress(size, remaining) == 100.0
    ensures remaining == size ==> Progress(size, remaining) == 0.0
  {
    var step := 100.0 / (size as real);
    assert step * (size as real) == 100.0;
    assert 0.0 <= step * (remaining as real) <= step * (size as real);
  }

  /** Each further pop of the same job raises the progress. */
  lemma ProgressIncreases(size: nat, remaining: nat)
    requires 0 < remaining <= size
    ensures Progress(size, remaining - 1) > Progress(size, remaining)
  {
    var step := 100.0 / (size as real);
    assert step > 0.0;
    assert step * ((remaining - 1) as real) == step * (remaining as real) - step;
  }

  /** A valid engine never divides by zero and stays valid across a send step. */
  lemma SendStepValid(s: State, now: real)
    requires Valid(s)
    ensures SendStep(s, now).Ok?
    ensures Valid(SendStep(s, now).value)
  {
    if s.connected && !Busy(s) && |s.injected| == 0 && |s.queue| > 0 && !s.blocked {
      SendBulkFront(s, now);
      if s.queueSize.Some? {
        ProgressBounds(s.queueSize.value, |s.queue| - 1);
      }
    } else if s.connected && !Busy(s) && |s.injected| > 0 {
      SendInjectedFirst(s, now);
    } else if s.connected && !Busy(s) {
      SendIdleForgets(s, now);
    }
  }

  /** The receive step keeps the engine valid. */
  lemma ReceiveStepValid(s: State, chunk: string, now: real)
    requires Valid(s)
    ensures Valid(ReceiveStep(s, chunk, now))
  {
  }


  /** The frames the send loop emits for bulk entries, in queue order:
      nothing for a `None` entry, the dry-run line otherwise. */
  function Sent(entries: seq<Option<Command>>): seq<string> {
    if |entries| == 0 then []
    else
      (match entries[0]
       case None => []
       case Some(c) => [Frame(Line(SetDryRun(c, true), true))])
      + Sent(entries[1..])
  }

  /** `k` rounds of the printer acknowledging with "ok" and the send loop
      taking the next entry. */
  function Pump(s: State, now: real, k: nat): Result<State, Fault>
    decreases k
  {
    if k == 0 then Ok(s)
    else
      var r := SendStep(Deliver(s, "ok"), now);
      if r.Err? then r else Pump(r.value, now, k - 1)
  }

  /** The acknowledgement flags do not appear on the wire. */
  lemma LineIgnoresOk(c: Command, b: bool)
    ensures Line(c.(okCommand := b), true) == Line(c, true)
  {
  }

  /** One acknowledged round with nothing injected and the queue unblocked
      pops the head entry and records the progress. */
  lemma RoundPops(s: State, now: real)
    requires Valid(s) && s.connected && s.injected == [] && !s.blocked && |s.queue| > 0
    ensures SendStep(Deliver(s, "ok"), now).Ok?
    ensures var s1 := SendStep(Deliver(s, "ok"), now).value;
            && Valid(s1) && s1.connected && s1.injected == [] && !s1.blocked
            && s1.queue == s.queue[1..] && s1.queueSize == s.queueSize
            && (s.queueSize.Some? ==> s.queueSize.value > 0 && s1.progress == Progress(s.queueSize.value, |s.queue| - 1))
  {
    var d := Deliver(s, "ok");
    assert !Busy(d);
    SendStepValid(d, now);
    SendBulkFront(d, now);
  }

  /** ... and sends the head entry's dry-run line. */
  lemma RoundSendsHead(s: State, now: real)
    requires Valid(s) && s.connected && s.injected == [] && !s.blocked && |s.queue| > 0
    ensures SendStep(Deliver(s, "ok"), now).Ok?
    ensures SendStep(Deliver(s, "ok"), now).value.wire == s.wire + Sent(s.queue[..1])
  {
    var d := Deliver(s, "ok");
    AckSettles(s);
    SendStepValid(d, now);
    SendBulkFront(d, now);
    SentOne(s.queue);
    if s.queue[0].Some? {
      var s1 := SendStep(d, now).value;
      LineIgnoresOk(SetDryRun(s.queue[0].value, true), s1.current.value.okCommand);
    }
  }

  /** An `ok` reply settles the command in flight, if any. */
  lemma AckSettles(s: State)
    ensures !Busy(Deliver(s, "ok"))
  {
  }

  /** What `Sent` gives for one entry. */
  lemma SentOne(q: seq<Option<Command>>)
    requires |q| > 0
    ensures q[0].None? ==> Sent(q[..1]) == []
    ensures q[0].Some? ==> Sent(q[..1]) == [Frame(Line(SetDryRun(q[0].value, true), true))]
  {
    assert q[..1][1..] == [];
    assert q[..1][0] == q[0];
  }

  /** The same round, as the first step of `Pump`. */
  lemma PumpOne(s: State, now: real, k: nat, j: nat) returns (s1: State)
    requires Valid(s) && s.connected && s.injected == [] && !s.blocked && 0 < k <= |s.queue| && j == k - 1
    ensures Pump(s, now, k) == Pump(s1, now, j)
    ensures && Valid(s1) && s1.connected && s1.injected == [] && !s1.blocked
            && s1.queue == s.queue[1..] && s1.queueSize == s.queueSize
            && s1.wire == s.wire + Sent(s.queue[..1])
            && (s.queueSize.Some? ==> s.queueSize.value > 0 && s1.progress == Progress(s.queueSize.value, |s.queue| - 1))
  {
    RoundPops(s, now);
    RoundSendsHead(s, now);
    PumpUnfold(s, now, k, j);
    s1 := SendStep(Deliver(s, "ok"), now).value;
  }

  /** One round of `Pump`, taken apart. */
  lemma PumpUnfold(s: State, now: real, k: nat, j: nat)
    requires k > 0 && j == k - 1 && SendStep(Deliver(s, "ok"), now).Ok?
    ensures Pump(s, now, k) == Pump(SendStep(Deliver(s, "ok"), now).value, now, j)
  {
    var r := SendStep(Deliver(s, "ok"), now);
    assert Pump(s, now, k) == (if r.Err? then r else Pump(r.value, now, k - 1));
  }

  lemma DropTail<T>(q: seq<T>, k: nat)
    requires 0 < k <= |q|
    ensures q[1..][k - 1..] == q[k..]
  {
  }

  lemma ConcatAssoc<T>(x: seq<T>, y: seq<T>, z: seq<T>)
    ensures (x + y) + z == x + (y + z)
  {
  }

  /** Splitting off the head entry's frames. */
  lemma {:induction false} SentHead(q: seq<Option<Command>>, tail: seq<Option<Command>>, k: nat, k1: nat)
    requires 0 < k <= |q| && tail == q[1..] && k1 == k - 1
    ensures Sent(q[..k]) == Sent(q[..1]) + Sent(tail[..k1])
  {
    assert q[..k][1..] == tail[..k1];
    assert q[..1][1..] == [];
  }

  /** `r` is `s` after its first `k` bulk entries were sent in order. */
  predicate Drained(s: State, r: State, k: nat)
    requires k <= |s.queue|
  {
    && Valid(r) && r.queue == s.queue[k..] && r.queueSize == s.queueSize
    && r.wire == s.wire + Sent(s.queue[..k])
    && (k > 0 && s.queueSize.Some? && s.queueSize.value > 0 ==>
          r.progress == Progress(s.queueSize.value, |s.queue| - k))
  }

  /** With nothing injected and the queue unblocked, acknowledged rounds send
      the bulk queue front to back, each entry exactly once, and never fail. */
  lemma {:induction false} DrainInOrder(s: State, now: real, k: nat)
    requires Valid(s) && s.connected && s.injected == [] && !s.blocked && k <= |s.queue|
    ensures Pump(s, now, k).Ok? && Drained(s, Pump(s, now, k).value, k)
    decreases k
  {
    if k == 0 {
      assert s.queue[..0] == [];
    } else {
      var j: nat := k - 1;
      var s1 := PumpOne(s, now, k, j);
      DrainInOrder(s1, now, j);
      var r := Pump(s1, now, j).value;
      assert Drained(s1, r, j);
      assert r.queue == s.queue[k..] by {
        assert r.queue == s1.queue[j..];
        DropTail(s.queue, k);
      }
      var a, b := Sent(s.queue[..1]), Sent(s1.queue[..j]);
      assert r.wire == s.wire + (a + b) by {
        assert r.wire == s1.wire + b;
        ConcatAssoc(s.wire, a, b);
      }
      assert a + b == Sent(s.queue[..k]) by {
        SentHead(s.queue, s1.queue, k, j);
      }
      assert Valid(r) && r.queueSize == s.queueSize;
      assert s.queueSize.Some? ==> r.progress == Progress(s.queueSize.value, |s.queue| - k) by {
        if j == 0 {
          assert Pump(s1, now, j) == Ok(s1);
        }
      }
      assert r.wire == s.wire + Sent(s.queue[..k]);
      assert Drained(s, r, k);
      assert Pump(s, now, k).value == r;
    }
  }

  /** Once every entry of a job has been sent, the progress reads 100. */
  lemma DrainCompletes(s: State, now: real)
    requires Valid(s) && s.connected && s.injected == [] && !s.blocked
    requires s.queueSize.Some? && |s.queue| > 0
    ensures Pump(s, now, |s.queue|).Ok?
    ensures Pump(s, now, |s.queue|).value.queue == []
    ensures Pump(s, now, |s.queue|).value.progress == 100.0
  {
    DrainInOrder(s, now, |s.queue|);
    ProgressBounds(s.queueSize.value, 0);
  }

  /** A command that has timed out stays timed out as the clock advances. */
  lemma TimeoutMonotone(s: State, t1: real, t2: real)
    requires s.current.Some? && t1 <= t2
    requires CheckTimeout(s, t1).current.value.timedOut
    ensures CheckTimeout(s, t2).current.value.timedOut
  {
  }

  /** An "ok" line arriving for an "ok" command in flight marks it finished,
      so the send loop may go on. */
  lemma ReceiveAcknowledges(s: State, chunk: string, rest: string, now: real)
    requires s.connected && s.current.Some?
    requires s.buffer + chunk == "ok\n" + rest
    ensures ReceiveStep(s, chunk, now).buffer == rest
    ensures !Busy(ReceiveStep(s, chunk, now))
  {
    ReceiveLineUnique(s.buffer, chunk, "ok", rest);
  }

}

=== FILE: jobs.dfy ===
/** Preparing a print job: `requestWrite`'s guards, `_print` with its three
    phases, the direct fill of the bulk queue, and the SD-card variant that
    initialises the card first and wraps the job in file commands. The
    printer's replies during the pre-fill are given as parameters. */
module Jobs {

  import opened Results
  import opened Strings
  import opened Registry
  import opened Commands
  import opened Parse
  import opened Transport
  import opened Engine

  /** What `requestWrite` does. */
  datatype WriteOutcome =
    | PrinterBusy        // progress is not 0: "the printer is busy"
    | AlreadyPreparing   // the print thread is running
    | NotConnected
    | Started

  /** `requestWrite`: a job starts only from progress 0, with no job being
      prepared, on a connected device; the guards are tried in that order. */
  function RequestWrite(progress: real, preparing: bool, connected: bool): (r: WriteOutcome)
    ensures r == Started <==> progress == 0.0 && !preparing && connected
    ensures r == PrinterBusy <==> progress != 0.0
    ensures r == AlreadyPreparing ==> preparing
    ensures r == NotConnected ==> !connected
  {
    if progress != 0.0 then PrinterBusy
    else if preparing then AlreadyPreparing
    else if !connected then NotConnected
    else Started
  }

  /** The non-empty strings of `ps`, in order. */
  function NonEmpty(ps: seq<string>): (r: seq<string>)
    ensures forall p :: p in r <==> p in ps && p != ""
    ensures forall i :: 0 <= i < |r| ==> r[i] != "" && r[i] in ps
    ensures |r| <= |ps|
  {
    if |ps| == 0 then []
    else NonEmpty(ps[..|ps| - 1]) + (if ps[|ps| - 1] == "" then [] else [ps[|ps| - 1]])
  }

  /** The lines `_print_fill_with_gcode` identifies: each entry of the job
      split at newlines, empty pieces dropped, in order. */
  function Pieces(job: seq<string>): (r: seq<string>)
    ensures forall i :: 0 <= i < |r| ==> r[i] != "" && '\n' !in r[i]
  {
    if |job| == 0 then []
    else
      var parts := SplitOn(job[|job| - 1], '\n');
      var last := NonEmpty(parts);
      assert forall p :: p in parts ==> '\n' !in p;
      Pieces(job[..|job| - 1]) + last
  }

  /** `entries` is what identifying `ps` front to back yields: every entry
      is the identified line, and filling stops at the first line that
      raises, which `failure` then holds. */
  predicate FillResult(ps: seq<string>, entries: seq<Option<Command>>, failure: Option<Failure>) {
    && |entries| <= |ps|
    && (forall i :: 0 <= i < |entries| ==> Identify(ps[i]) == Ok(entries[i]))
    && (failure.None? ==> |entries| == |ps|)
    && (failure.Some? ==> |entries| < |ps| && Identify(ps[|entries|]) == Err(failure.value))
  }

  /** The fill as a function, front to back. */
  function FillFrom(ps: seq<string>): (r: (seq<Option<Command>>, Option<Failure>))
    ensures FillResult(ps, r.0, r.1)
  {
    if |ps| == 0 then ([], None)
    else match Identify(ps[0])
      case Err(f) => ([], Some(f))
      case Ok(e) =>
        var rest := FillFrom(ps[1..]);
        ([e] + rest.0, rest.1)
  }

  /** A fill has only one possible outcome. */
  lemma FillResultUnique(ps: seq<string>, e1: seq<Option<Command>>, f1: Option<Failure>,
                         e2: seq<Option<Command>>, f2: Option<Failure>)
    requires FillResult(ps, e1, f1) && FillResult(ps, e2, f2)
    ensures e1 == e2 && f1 == f2
  {
  }

  /** A fill that stopped on a prefix stops at the same place on the whole. */
  lemma FillExtend(ps: seq<string>, qs: seq<string>, entries: seq<Option<Command>>, f: Failure)
    requires FillResult(ps, entries, Some(f)) && ps <= qs
    ensures FillResult(qs, entries, Some(f))
  {
    assert forall i :: 0 <= i < |ps| ==> qs[i] == ps[i];
  }

  lemma {:induction false} NonEmptyGrows(ps: seq<string>, j: nat)
    requires j < |ps|
    ensures NonEmpty(ps[..j + 1]) == NonEmpty(ps[..j]) + (if ps[j] == "" then [] else [ps[j]])
  {
    assert ps[..j + 1][..j] == ps[..j];
  }

  lemma {:induction false} NonEmptyPrefix(ps: seq<string>, j: nat)
    requires j <= |ps|
    ensures NonEmpty(ps[..j]) <= NonEmpty(ps)
    decreases |ps| - j
  {
    if j == |ps| {
      assert ps[..j] == ps;
    } else {
      NonEmptyGrows(ps, j);
      NonEmptyPrefix(ps, j + 1);
    }
  }

  lemma {:induction false} PiecesGrow(job: seq<string>, i: nat)
    requires i < |job|
    ensures Pieces(job[..i + 1]) == Pieces(job[..i]) + NonEmpty(SplitOn(job[i], '\n'))
  {
    assert job[..i + 1][..i] == job[..i];
  }

  lemma {:induction false} PiecesPrefix(job: seq<string>, i: nat)
    requires i <= |job|
    ensures Pieces(job[..i]) <= Pieces(job)
    decreases |job| - i
  {
    if i == |job| {
      assert job[..i] == job;
    } else {
      PiecesGrow(job, i);
      PiecesPrefix(job, i + 1);
    }
  }

  lemma PrefixConcat(a: seq<string>, b: seq<string>, c: seq<string>)
    requires b <= c
    ensures a + b <= a + c
  {
    assert forall i :: 0 <= i < |a + b| ==> (a + b)[i] == (a + c)[i];
  }

  /** One more piece identified without error. */
  lemma FillStepOk(done: seq<string>, entries: seq<Option<Command>>, p: string, e: Option<Command>)
    requires FillResult(done, entries, None) && Identify(p) == Ok(e)
    ensures FillResult(done + [p], entries + [e], None)
  {
    assert forall i :: 0 <= i < |done| ==> (done + [p])[i] == done[i];
  }

  /** One more piece, which raises. */
  lemma FillStepErr(done: seq<string>, entries: seq<Option<Command>>, p: string, f: Failure)
    requires FillResult(done, entries, None) && Identify(p) == Err(f)
    ensures FillResult(done + [p], entries, Some(f))
  {
    assert forall i :: 0 <= i < |done| ==> (done + [p])[i] == done[i];
  }

  /** The inner loop's step on piece `j`, in its three cases. */
  lemma FillPieceOk(done: seq<string>, parts: seq<string>, j: nat, entries: seq<Option<Command>>, e: Option<Command>)
    requires j < |parts| && FillResult(done + NonEmpty(parts[..j]), entries, None)
    requires parts[j] != "" && Identify(parts[j]) == Ok(e)
    ensures FillResult(done + NonEmpty(parts[..j + 1]), entries + [e], None)
  {
    NonEmptyGrows(parts, j);
    assert done + NonEmpty(parts[..j + 1]) == (done + NonEmpty(parts[..j])) + [parts[j]];
    FillStepOk(done + NonEmpty(parts[..j]), entries, parts[j], e);
  }

  lemma FillPieceEmpty(done: seq<string>, parts: seq<string>, j: nat, entries: seq<Option<Command>>)
    requires j < |parts| && FillResult(done + NonEmpty(parts[..j]), entries, None)
    requires parts[j] == ""
    ensures FillResult(done + NonEmpty(parts[..j + 1]), entries, None)
  {
    NonEmptyGrows(parts, j);
  }

  lemma FillPieceErr(done: seq<string>, parts: seq<string>, j: nat, entries: seq<Option<Command>>, f: Failure)
    requires j < |parts| && FillResult(done + NonEmpty(parts[..j]), entries, None)
    requires parts[j] != "" && Identify(parts[j]) == Err(f)
    ensures FillResult(done + NonEmpty(parts), entries, Some(f))
  {
    FillPieceStops(done, parts, j, entries, f);
    DoneThroughPrefix(done, parts, j + 1);
    FillExtend(done + NonEmpty(parts[..j + 1]), done + NonEmpty(parts), entries, f);
  }

  lemma FillPieceStops(done: seq<string>, parts: seq<string>, j: nat, entries: seq<Option<Command>>, f: Failure)
    requires j < |parts| && FillResult(done + NonEmpty(parts[..j]), entries, None)
    requires parts[j] != "" && Identify(parts[j]) == Err(f)
    ensures FillResult(done + NonEmpty(parts[..j + 1]), entries, Some(f))
  {
    NonEmptyGrows(parts, j);
    assert done + NonEmpty(parts[..j + 1]) == (done + NonEmpty(parts[..j])) + [parts[j]];
    FillStepErr(done + NonEmpty(parts[..j]), entries, parts[j], f);
  }

  lemma DoneThroughPrefix(done: seq<string>, parts: seq<string>, j: nat)
    requires j <= |parts|
    ensures done + NonEmpty(parts[..j]) <= done + NonEmpty(parts)
  {
    NonEmptyPrefix(parts, j);
    PrefixConcat(done, NonEmpty(parts[..j]), NonEmpty(parts));
  }

  /** The inner loop of the fill: the non-empty pieces of one entry,
      identified in order after those already done. */
  method FillPieces(done: seq<string>, entries0: seq<Option<Command>>, parts: seq<string>)
    returns (entries: seq<Option<Command>>, failure: Option<Failure>)
    requires FillResult(done, entries0, None)
    ensures FillResult(done + NonEmpty(parts), entries, failure)
  {
    entries := entries0;
    failure := None;
    var j := 0;
    assert done + NonEmpty(parts[..0]) == done;
    while j < |parts|
      invariant 0 <= j <= |parts|
      invariant FillResult(done + NonEmpty(parts[..j]), entries, None)
    {
      if parts[j] != "" {
        var r := Identify(parts[j]);
        if r.Err? {
          FillPieceErr(done, parts, j, entries, r.error);
          failure := Some(r.error);
          return;
        }
        FillPieceOk(done, parts, j, entries, r.value);
        entries := entries + [r.value];
      } else {
        FillPieceEmpty(done, parts, j, entries);
      }
      j := j + 1;
    }
    assert parts[..j] == parts;
  }

  /** `_print_fill_with_gcode` of the direct device: every entry of the job
      split at newlines, every non-empty piece identified and appended in
      order; the first piece that raises ends the fill. */
  method FillQueue(job: seq<string>) returns (entries: seq<Option<Command>>, failure: Option<Failure>)
    ensures FillResult(Pieces(job), entries, failure)
  {
    entries := [];
    failure := None;
    var i := 0;
    while i < |job|
      invariant 0 <= i <= |job|
      invariant FillResult(Pieces(job[..i]), entries, None) && failure.None?
    {
      PiecesGrow(job, i);
      entries, failure := FillPieces(Pieces(job[..i]), entries, SplitOn(job[i], '\n'));
      if failure.Some? {
        PiecesPrefix(job, i + 1);
        FillExtend(Pieces(job[..i + 1]), Pieces(job), entries, failure.value);
        return;
      }
      i := i + 1;
    }
    assert job[..i] == job;
  }

  /** `_temp_file_name` of the SD device. */
  const TempFile: string := "temp.gco"

  /** A file command with its name set by `setFile`. */
  function FileCommand(k: Kind): (c: Command)
    requires k.Decl().FreeText?
    ensures WellFormed(c) && c.kind == k && c.options == Text(TempFile)
  {
    SetText(New(k), TempFile)
  }

  /** `_print_fill_with_gcode` of the SD device: the job is written to the
      temporary file between M28 and the file commands after it: M30 (deleting
      the file, written into the file itself), M29, M23 and M24. Nothing is
      appended after a piece that raises. */
  function SdWrap(entries: seq<Option<Command>>, failure: Option<Failure>): (q: seq<Option<Command>>)
    ensures |q| == |entries| + (if failure.None? then 5 else 1)
    ensures q[0] == Some(FileCommand(M28)) && q[1..|entries| + 1] == entries
    ensures failure.None? ==>
              q[|entries| + 1..] == [Some(FileCommand(M30)), Some(FileCommand(M29)), Some(FileCommand(M23)), Some(New(M24))]
  {
    [Some(FileCommand(M28))] + entries
    + (if failure.None?
       then [Some(FileCommand(M30)), Some(FileCommand(M29)), Some(FileCommand(M23)), Some(New(M24))]
       else [])
  }

  /** The lines that arrive while one pre-fill attempt waits: first while
      it waits on the M21, then while it waits on the M29 sent when the card
      status stayed unknown. They need not answer the command waited on: an
      M21 retried after a failed status is still the command in flight, so
      the lines may belong to an earlier send. */
  datatype Attempt = Attempt(initReplies: seq<string>, closeReplies: seq<string>)

  /** Lines that say nothing about the SD card. */
  predicate Silent(lines: seq<string>) {
    forall i :: 0 <= i < |lines| ==> SdStatusOf(lines[i]).None?
  }

  /** Every non-empty line goes to the command in flight and the SD cache. */
  function DeliverAll(s: State, lines: seq<string>): (r: State)
    ensures r.current.Some? <==> s.current.Some?
    ensures && r.connected == s.connected && r.wire == s.wire && r.queue == s.queue
            && r.injected == s.injected && r.progress == s.progress && r.blocked == s.blocked
            && r.queueSize == s.queueSize
    ensures r.current.Some? ==> r.current.value.kind == s.current.value.kind
    ensures Silent(lines) ==> r.sdCache == s.sdCache
    ensures Silent(lines) && r.current.Some? ==> r.current.value.sdCard == s.current.value.sdCard
    decreases |lines|
  {
    if |lines| == 0 then s
    else DeliverAll(if lines[0] != "" then Deliver(s, lines[0]) else s, lines[1..])
  }

  /** `injectCommand(c, wait=True)` with the line free: `c` is sent, the
      replies arrive, and the wait ends once `c` has finished or timed out.
      Only commands that can time out are exchanged this way: for M109 and
      M800 the wait would never end without a reply. */
  function Exchange(s: State, c: Command, replies: seq<string>, now: real): (r: State)
    requires EffectiveTimeout(c.kind) != -1
    ensures r.current.Some? && r.current.value.kind == c.kind && Settled(r.current.value)
    ensures r.wire == s.wire + [Frame(Line(c, true))]
    ensures && r.connected == s.connected && r.queue == s.queue && r.injected == s.injected
            && r.progress == s.progress && r.blocked == s.blocked && r.queueSize == s.queueSize
    ensures Silent(replies) ==> r.sdCache == s.sdCache && r.current.value.sdCard == c.sdCard
  {
    var s1 := s.(current := Some(c), wire := s.wire + [Frame(Line(c, true))], sentAt := Some(now));
    var s2 := DeliverAll(s1, replies);
    var c2 := s2.current.value;
    if Settled(c2) then s2 else s2.(current := Some(HasTimedOut(c2, Some(true)).0))
  }

  /** The send that starts an exchange is the send loop serving the injected command. */
  lemma ExchangeSendsInjected(s: State, c: Command, now: real)
    requires s.connected && !Busy(s) && s.injected == []
    ensures SendStep(Inject(s, c), now)
            == Ok(s.(current := Some(c), wire := s.wire + [Frame(Line(c, true))], sentAt := Some(now)))
  {
    SendInjectedFirst(Inject(s, c), now);
  }

  /** One attempt: the M21 is reset (its card flag survives the reset) and
      sent, then an M29 closes a file when the card flag is still unknown. */
  function TryOnce(s: State, m21: Command, a: Attempt, now: real): (r: (State, Command))
    requires m21.kind == M21
    ensures r.0.connected == s.connected && r.0.queue == s.queue && r.0.injected == s.injected
    ensures r.0.progress == s.progress && r.0.blocked == s.blocked && r.0.queueSize == s.queueSize
    ensures r.0.wire == s.wire + [Frame(Line(Reset(m21), true))]
                        + (if r.1.sdCard.None? then [Frame(Line(New(M29), true))] else [])
    ensures r.1.kind == m21.kind
    ensures Silent(a.initReplies) && Silent(a.closeReplies) ==>
              r.0.sdCache == s.sdCache && r.1.sdCard == m21.sdCard
  {
    var s1 := Exchange(s, Reset(m21), a.initReplies, now);
    var m := s1.current.value;
    var s2 := if m.sdCard.None? then Exchange(s1, New(M29), a.closeReplies, now) else s1;
    (s2, m)
  }

  /** The replies for attempt `i`; none once the given ones run out. */
  function AttemptAt(attempts: seq<Attempt>, i: nat): Attempt {
    if i < |attempts| then attempts[i] else Attempt([], [])
  }

  /** The `while` of `_print_pre_fill_gcode`: up to three attempts while the
      M21 has not reported the card ready. */
  function InitLoop(s: State, m21: Command, tries: nat, attempts: seq<Attempt>, now: real): (r: (State, Command))
    requires m21.kind == M21 && tries <= 3
    ensures r.0.connected == s.connected && r.0.queue == s.queue && r.0.injected == s.injected
    ensures r.0.progress == s.progress && r.0.blocked == s.blocked && r.0.queueSize == s.queueSize
    ensures |s.wire| <= |r.0.wire| <= |s.wire| + 2 * (3 - tries)
    ensures m21.sdCard != Some(true) && tries < 3 ==> |r.0.wire| > |s.wire|
    ensures m21.sdCard == Some(true) || tries == 3 ==> r == (s, m21)
    decreases 3 - tries
  {
    if m21.sdCard == Some(true) || tries >= 3 then (s, m21)
    else
      var (s2, m) := TryOnce(s, m21, AttemptAt(attempts, tries), now);
      InitLoop(s2, m, tries + 1, attempts, now)
  }

  /** The M21 the SD device initialises the card with: slot 0. */
  function SdInit(): (c: Command)
    ensures c.kind == M21 && c.options == Dict(map['P' := "0"]) && c.sdCard.None?
  {
    New(M21).(options := Dict(map['P' := IntToString(0)]))
  }

  lemma SdInitIsSetSdSlot()
    ensures SetSdSlot(New(M21), Some(0)) == Ok(SdInit())
  {
  }

  /** `_print_pre_fill_gcode` of the SD device: the attempts, then an error
      unless the SD cache says the card is ready. The exception is raised
      after the attempts, so their frames and the cache they updated stay
      in the state either way. */
  function PreFill(s: State, attempts: seq<Attempt>, now: real): (r: (State, Option<Fault>))
    ensures r.0 == InitLoop(s, SdInit(), 0, attempts, now).0
    ensures r.1.Some? <==> r.0.sdCache != CardOk
    ensures r.1.Some? ==> r.1.value == SdCardProblem
    ensures r.0.queue == s.queue && r.0.blocked == s.blocked && r.0.progress == s.progress
            && r.0.connected == s.connected && r.0.queueSize == s.queueSize
    ensures |s.wire| < |r.0.wire| <= |s.wire| + 6
  {
    var (s1, _) := InitLoop(s, SdInit(), 0, attempts, now);
    if s1.sdCache != CardOk then (s1, Some(SdCardProblem)) else (s1, None)
  }

  datatype Device = Direct | SdUpload

  /** `_print`: clear the bulk queue, pre-fill, block the send loop, fill,
      unblock, and record the queue size. A pre-fill error leaves the queue
      empty, with the pre-fill's own commands sent; a fill error leaves the send loop blocked with the entries
      identified so far. */
  function Print(s: State, device: Device, job: seq<string>, attempts: seq<Attempt>, now: real): (r: (State, Option<Fault>))
    ensures r.1.None? ==> !r.0.blocked && r.0.queueSize == Some(|r.0.queue|)
    ensures r.1 == Some(SdCardProblem) ==> device == SdUpload && r.0.queue == [] && |r.0.wire| > |s.wire|
    ensures r.1.Some? && r.1.value.Unparsable? ==> r.0.blocked
    ensures r.0.progress == s.progress && r.0.connected == s.connected
  {
    var s0 := s.(queue := []);
    var (s1, pre) := if device == SdUpload then PreFill(s0, attempts, now) else (s0, None);
    if pre.Some? then (s1, pre)
    else
      var (entries, failure) := FillFrom(Pieces(job));
      var queue := if device == SdUpload then SdWrap(entries, failure) else entries;
      var s2 := s1.(blocked := true, queue := queue);
      match failure
      case Some(f) => (s2, Some(Unparsable(f)))
      case None => (s2.(blocked := false, queueSize := Some(|queue|)), None)
  }

  /** A direct print queues exactly the identified pieces of the job, or
      fails on the first piece that raises. */
  lemma DirectPrintQueue(s: State, job: seq<string>, attempts: seq<Attempt>, now: real)
    ensures var r := Print(s, Direct, job, attempts, now);
            && (r.1.None? ==> FillResult(Pieces(job), r.0.queue, None))
            && (r.1.Some? ==> exists f :: r.1 == Some(Unparsable(f)) && FillResult(Pieces(job), r.0.queue, Some(f)))
  {
  }

  /** An SD print that succeeds queues the whole job wrapped in the file
      commands (see `SdWrap`): five more entries than the job has lines. */
  lemma SdPrintQueue(s: State, job: seq<string>, attempts: seq<Attempt>, now: real)
    requires Print(s, SdUpload, job, attempts, now).1.None?
    ensures FillFrom(Pieces(job)).1.None?
    ensures Print(s, SdUpload, job, attempts, now).0.queue == SdWrap(FillFrom(Pieces(job)).0, None)
    ensures |Print(s, SdUpload, job, attempts, now).0.queue| == |Pieces(job)| + 5
  {
  }

  /** A failed pre-fill ends the print in the state the attempts left,
      with the queue cleared and nothing identified. */
  lemma PreFillFailureEndsPrint(s: State, job: seq<string>, attempts: seq<Attempt>, now: real)
    requires PreFill(s.(queue := []), attempts, now).1.Some?
    ensures Print(s, SdUpload, job, attempts, now)
            == (InitLoop(s.(queue := []), SdInit(), 0, attempts, now).0, Some(SdCardProblem))
  {
  }

  /** Preparing a job keeps the engine valid, whatever goes wrong. */
  lemma PrintValid(s: State, device: Device, job: seq<string>, attempts: seq<Attempt>, now: real)
    requires Valid(s)
    ensures Valid(Print(s, device, job, attempts, now).0)
  {
  }

  /** A prepared direct job, sent to the end with every line acknowledged,
      puts exactly its lines on the wire, and leaves the progress at 100, so
      the next `requestWrite` is refused as busy. */
  lemma JobRunsToCompletion(s: State, job: seq<string>, attempts: seq<Attempt>, now: real)
    requires s.connected && s.injected == [] && 0.0 <= s.progress <= 100.0
    requires Print(s, Direct, job, attempts, now).1.None?
    requires |Print(s, Direct, job, attempts, now).0.queue| > 0
    ensures var p := Print(s, Direct, job, attempts, now).0;
            && Pump(p, now, |p.queue|).Ok?
            && Pump(p, now, |p.queue|).value.wire == s.wire + Sent(p.queue)
            && RequestWrite(Pump(p, now, |p.queue|).value.progress, false, true) == PrinterBusy
  {
    var p := Print(s, Direct, job, attempts, now).0;
    assert p.wire == s.wire;
    DrainInOrder(p, now, |p.queue|);
    DrainCompletes(p, now);
    assert p.queue[..|p.queue|] == p.queue;
  }

  /** Every attempt's replies say nothing about the SD card. */
  predicate SilentAttempts(attempts: seq<Attempt>) {
    forall i :: 0 <= i < |attempts| ==> Silent(attempts[i].initReplies) && Silent(attempts[i].closeReplies)
  }

  /** One turn of the loop against a silent printer while the card is not
      ready: the attempt changes neither the cache nor the M21's flag, and
      with the flag unknown it sends the M21 and an M29. */
  lemma SilentStep(s: State, m21: Command, tries: nat, attempts: seq<Attempt>, now: real)
      returns (s2: State, m: Command)
    requires m21.kind == M21 && tries < 3 && m21.sdCard != Some(true) && SilentAttempts(attempts)
    ensures m.kind == M21 && m.sdCard == m21.sdCard && s2.sdCache == s.sdCache
    ensures InitLoop(s, m21, tries, attempts, now) == InitLoop(s2, m, tries + 1, attempts, now)
    ensures m21.sdCard.None? ==> |s2.wire| == |s.wire| + 2
  {
    var a := AttemptAt(attempts, tries);
    assert Silent(a.initReplies) && Silent(a.closeReplies);
    var t := TryOnce(s, m21, a, now);
    s2, m := t.0, t.1;
  }

  /** A printer that never reports on the card leaves the cache and the M21's
      flag as they were. */
  lemma {:induction false} SilentPrinter(s: State, m21: Command, tries: nat, attempts: seq<Attempt>, now: real)
    requires m21.kind == M21 && tries <= 3 && SilentAttempts(attempts)
    ensures InitLoop(s, m21, tries, attempts, now).0.sdCache == s.sdCache
    ensures InitLoop(s, m21, tries, attempts, now).1.sdCard == m21.sdCard
    decreases 3 - tries
  {
    if m21.sdCard != Some(true) && tries < 3 {
      var s2, m := SilentStep(s, m21, tries, attempts, now);
      SilentPrinter(s2, m, tries + 1, attempts, now);
    }
  }

  /** With the flag unknown and the printer silent, every remaining attempt
      is made, each sending an M21 and an M29. */
  lemma {:induction false} SilentWire(s: State, m21: Command, tries: nat, attempts: seq<Attempt>, now: real)
    requires m21.kind == M21 && m21.sdCard.None? && tries <= 3 && SilentAttempts(attempts)
    ensures |InitLoop(s, m21, tries, attempts, now).0.wire| == |s.wire| + 2 * (3 - tries)
    decreases 3 - tries
  {
    if tries < 3 {
      var s2, m := SilentStep(s, m21, tries, attempts, now);
      SilentWire(s2, m, tries + 1, attempts, now);
    }
  }

  /** Against a printer that never reports on the card, the pre-fill
      outcome is decided by the cache alone. */
  lemma SilentPreFill(s: State, attempts: seq<Attempt>, now: real)
    requires SilentAttempts(attempts)
    ensures PreFill(s, attempts, now).1.None? <==> s.sdCache == CardOk
  {
    SilentPrinter(s, SdInit(), 0, attempts, now);
  }

  /** A printer still writing a file answers every command with a bare
      "ok". All three attempts leave the card flag unknown, so each is
      followed by an M29; the job then fails with an empty queue, the six
      commands sent and the cache still unknown. */
  lemma CardInWriteMode(s: State, now: real, attempts: seq<Attempt>, job: seq<string>)
    requires s.sdCache == Unknown
    requires attempts == [Attempt(["ok"], ["ok"]), Attempt(["ok"], ["ok"]), Attempt(["ok"], ["ok"])]
    ensures var r := Print(s, SdUpload, job, attempts, now);
            && r.1 == Some(SdCardProblem) && r.0.queue == []
            && |r.0.wire| == |s.wire| + 6 && r.0.sdCache == Unknown
  {
    assert SilentAttempts(attempts) by {
      assert Silent(["ok"]);
    }
    SilentPrinter(s.(queue := []), SdInit(), 0, attempts, now);
    SilentWire(s.(queue := []), SdInit(), 0, attempts, now);
    SilentPreFill(s.(queue := []), attempts, now);
    PreFillFailureEndsPrint(s, job, attempts, now);
  }

  /** A reply "echo:SD card ok" to the M21 sets both its flag and the cache. */
  lemma ReadyReply(s: State, c: Command, rest: seq<string>, now: real)
    requires c.kind == M21 && Silent(rest)
    ensures var r := Exchange(s, c, ["echo:SD card ok"] + rest, now);
            r.sdCache == CardOk && r.current.value.sdCard == Some(true)
  {
    var s1 := s.(current := Some(c), wire := s.wire + [Frame(Line(c, true))], sentAt := Some(now));
    var lines := ["echo:SD card ok"] + rest;
    assert lines[1..] == rest;
    assert DeliverAll(s1, lines) == DeliverAll(Deliver(s1, "echo:SD card ok"), rest);
  }

  /** A card that answers the first M21 with "echo:SD card ok" is ready after
      one exchange, and only that M21 is sent. */
  lemma CardReadyAtOnce(s: State, now: real, attempts: seq<Attempt>)
    requires |attempts| > 0 && attempts[0].initReplies == ["echo:SD card ok", "ok"]
    ensures PreFill(s, attempts, now).1.None?
    ensures PreFill(s, attempts, now).0.wire == s.wire + [Frame(Line(SdInit(), true))]
  {
    assert Reset(SdInit()) == SdInit();
    assert Silent(["ok"]);
    assert attempts[0].initReplies == ["echo:SD card ok"] + ["ok"];
    ReadyReply(s, SdInit(), ["ok"], now);
  }

  /** The SD cache is never cleared before the attempts: a card reported
      ready by an earlier job passes the check even when this time the
      printer does not answer at all. */
  lemma StaleCacheAccepted(s: State, now: real)
    requires s.sdCache == CardOk
    ensures PreFill(s, [], now).1.None?
  {
    SilentPreFill(s, [], now);
  }

}

=== FILE: line_facts.dfy ===
/** What `line()` prints: option order, dry-run suppression of `E`, and the
    exact text of the commands the engine builds itself. */
module LineFacts {

  import opened Results
  import opened Strings
  import opened Ordering
  import opened Registry
  import opened Commands

  /** A printed line starts with `N` exactly when its line number is set and
      asked for: command names start with G or M. */
  lemma LineNumbered(c: Command, withLineNumber: bool)
    ensures var l := Line(c, withLineNumber);
            (|l| > 0 && l[0] == 'N') <==> withLineNumber && c.lineNumber.Some?
  {
    NameStartsWithFamily(c.kind);
    var p, name := LinePrefix(c, withLineNumber), c.kind.Name();
    var l := p + (name + OptionsText(c.options, c.dryRun));
    assert Line(c, withLineNumber) == l;
    if c.lineNumber.Some? && withLineNumber {
      assert p == "N" + (IntToString(c.lineNumber.value) + " ");
      assert l[0] == 'N';
    } else {
      assert p == "";
      assert l[0] == name[0];
    }
  }

  /** The class name follows the prefix of a printed line. */
  lemma LineName(c: Command, withLineNumber: bool)
    ensures var l, p, name := Line(c, withLineNumber), LinePrefix(c, withLineNumber), c.kind.Name();
            |p| + |name| <= |l| && l[|p|..|p| + |name|] == name
  {
    var p, name := LinePrefix(c, withLineNumber), c.kind.Name();
    var l := p + (name + OptionsText(c.options, c.dryRun));
    assert Line(c, withLineNumber) == l;
    assert l[|p|..|p| + |name|] == name;
  }

  /** A text option prints after one space; a token list, or no options at
      all, print nothing after the class name. */
  lemma LineText(c: Command, withLineNumber: bool)
    ensures var l, p, name := Line(c, withLineNumber), LinePrefix(c, withLineNumber), c.kind.Name();
            && (c.options.Text? ==> l == p + name + " " + c.options.text)
            && (c.options.Absent? || c.options.Tokens? ==> l == p + name)
  {
    var p, name := LinePrefix(c, withLineNumber), c.kind.Name();
    if c.options.Text? {
      assert Line(c, withLineNumber) == p + (name + (" " + c.options.text));
    } else if c.options.Absent? || c.options.Tokens? {
      assert Line(c, withLineNumber) == p + (name + "");
    }
  }

  lemma {:induction false} EntryWordsDry(m: map<char, string>, ks: seq<char>)
    requires forall k :: k in ks ==> k in m
    ensures forall k :: k in Without(ks, 'E') ==> k in m - {'E'}
    ensures EntryWords(m, ks, true) == EntryWords(m - {'E'}, Without(ks, 'E'), false)
    decreases |ks|
  {
    if |ks| > 0 {
      EntryWordsDry(m, ks[1..]);
    }
  }

  /** In dry-run mode the `E` option is left out and every other option is
      printed exactly as without dry-run. */
  lemma DryRunDropsExtrusion(c: Command, withLineNumber: bool)
    requires c.options.Dict?
    ensures Line(c.(dryRun := true), withLineNumber)
         == Line(c.(dryRun := false, options := Dict(c.options.entries - {'E'})), withLineNumber)
  {
    var m := c.options.entries;
    assert (m - {'E'}).Keys == m.Keys - {'E'};
    SortedWithout(m.Keys, 'E');
    EntryWordsDry(m, SortedChars(m.Keys));
  }

  /** Without a dict option `E`, dry-run changes nothing in the printed line. */
  lemma DryRunWithoutExtrusion(c: Command, withLineNumber: bool)
    requires c.options.Dict? && 'E' !in c.options.entries
    ensures Line(c.(dryRun := true), withLineNumber) == Line(c.(dryRun := false), withLineNumber)
  {
    DryRunDropsExtrusion(c, withLineNumber);
    assert c.options.entries - {'E'} == c.options.entries;
  }

  lemma EntryWordsCons(m: map<char, string>, k: char, rest: seq<char>)
    requires k in m && k != 'E'
    requires forall i :: 0 <= i < |rest| ==> rest[i] in m
    ensures EntryWords(m, [k] + rest, false) == [[k] + m[k]] + EntryWords(m, rest, false)
  {
    assert ([k] + rest)[1..] == rest;
  }

  lemma ExampleKeys(m: map<char, string>)
    requires m == map['X' := "10", 'Y' := "20", 'F' := "1500"]
    ensures SortedChars(m.Keys) == ['F', 'X', 'Y']
  {
    assert m.Keys == {'X', 'Y', 'F'};
    IncreasingUnique(SortedChars(m.Keys), ['F', 'X', 'Y']);
  }

  lemma ExampleWords(m: map<char, string>)
    requires m == map['X' := "10", 'Y' := "20", 'F' := "1500"]
    ensures EntryWords(m, ['F', 'X', 'Y'], false) == ["F1500", "X10", "Y20"]
  {
    assert m['F'] == "1500" && m['X'] == "10" && m['Y'] == "20";
    EntryWordsCons(m, 'Y', []);
    EntryWordsCons(m, 'X', ['Y']);
    EntryWordsCons(m, 'F', ['X', 'Y']);
    assert ['F'] + "1500" == "F1500" && ['X'] + "10" == "X10" && ['Y'] + "20" == "Y20";
  }

  lemma ExampleSpaced()
    ensures Spaced(["F1500", "X10", "Y20"]) == " F1500 X10 Y20"
  {
    assert Spaced(["Y20"]) == " Y20" by {
      assert ["Y20"][1..] == [];
    }
    assert Spaced(["X10", "Y20"]) == " X10 Y20" by {
      assert ["X10", "Y20"][1..] == ["Y20"];
    }
    assert ["F1500", "X10", "Y20"][1..] == ["X10", "Y20"];
  }

  lemma ExampleOptionsText(m: map<char, string>)
    requires m == map['X' := "10", 'Y' := "20", 'F' := "1500"]
    ensures OptionsText(Dict(m), false) == " F1500 X10 Y20"
  {
    ExampleKeys(m);
    ExampleWords(m);
    ExampleSpaced();
  }

  lemma NameG1()
    ensures G1.Name() == "G1"
  {
    assert NatToString(1) == "1";
  }

  lemma TwelveText()
    ensures IntToString(12) == "12"
  {
    assert NatToString(1) == "1";
    assert NatToString(12) == NatToString(1) + "2";
  }

  /** Options are printed in ascending key order, whatever order they were set in. */
  lemma SortedOptionLine(m: map<char, string>)
    requires m == map['X' := "10", 'Y' := "20", 'F' := "1500"]
    ensures Line(New(G1).(options := Dict(m)), false) == "G1 F1500 X10 Y20"
    ensures Line(New(G1).(options := Dict(m), lineNumber := Some(12)), true) == "N12 G1 F1500 X10 Y20"
  {
    var c := New(G1).(options := Dict(m));
    ExampleOptionsText(m);
    NameG1();
    TwelveText();
    assert Line(c, false) == "" + "G1" + " F1500 X10 Y20";
    var d := c.(lineNumber := Some(12));
    assert LinePrefix(d, true) == "N12 ";
    assert Line(d, true) == "N12 " + "G1" + " F1500 X10 Y20";
    ExampleConcat();
  }

  lemma ExampleConcat()
    ensures "" + "G1" + " F1500 X10 Y20" == "G1 F1500 X10 Y20"
    ensures "N12 " + "G1" + " F1500 X10 Y20" == "N12 G1 F1500 X10 Y20"
  {
  }

  /** A dict with one entry prints as one word after a space. */
  lemma SingleEntryText(key: char, v: string, dryRun: bool)
    requires !dryRun || key != 'E'
    ensures OptionsText(Dict(map[key := v]), dryRun) == " " + ([key] + v)
  {
    var m := map[key := v];
    assert m.Keys == {key};
    IncreasingUnique(SortedChars(m.Keys), [key]);
    assert [key][1..] == [];
    var w := [key] + v;
    assert EntryWords(m, [key], dryRun) == [w];
    assert Spaced([w]) == " " + w + Spaced([]);
  }

  /** The printed form of one option word, as a literal. */
  lemma OptionWordText(key: char, v: string, text: string)
    requires |text| == |v| + 2 && text[0] == ' ' && text[1] == key && text[2..] == v
    ensures " " + ([key] + v) == text
  {
  }

  /** Without a line number, `line()` is the class name followed by the options text. */
  lemma UnnumberedLine(c: Command, withLineNumber: bool)
    requires c.lineNumber.None?
    ensures Line(c, withLineNumber) == c.kind.Name() + OptionsText(c.options, c.dryRun)
  {
    assert LinePrefix(c, withLineNumber) == "";
  }

  /** The SD initialisation command for slot 0 reads `M21 P0`. */
  lemma SdSlotZeroLine()
    ensures SetSdSlot(New(M21), Some(0)).Ok?
    ensures Line(SetSdSlot(New(M21), Some(0)).value, true) == "M21 P0"
  {
    var c := SetSdSlot(New(M21), Some(0)).value;
    assert c.options == Dict(map['P' := "0"]);
    SingleEntryText('P', "0", c.dryRun);
    UnnumberedLine(c, true);
    assert M21.Name() == "M21";
    OptionWordText('P', "0", " P0");
  }

  /** A free-text command prints its text after one space; a parsed one
      (options kept as tokens) prints no suffix at all. */
  lemma TextAndTokenLines(k: Kind, text: string, tokens: seq<string>)
    requires k.Decl().FreeText?
    ensures Line(SetText(New(k), text), false) == k.Name() + " " + text
    ensures Line(New(k).(options := Tokens(tokens)), false) == k.Name()
  {
  }

  /** A heater command in dry-run mode asks for 50 degrees, whichever mode is passed. */
  lemma HeaterDryRunOptions(k: Kind, mode: bool)
    requires k.IsHeater()
    ensures SetDryRun(New(k), mode).options == Dict(map['S' := "50"])
  {
    assert New(k).options == Dict(map[]) by {
      assert k.Decl().Letters?;
    }
    assert map[]['S' := "50"] == map['S' := "50"];
  }

  /** The line such a heater command prints. */
  lemma HeaterDryRunLine(k: Kind, mode: bool)
    requires k.IsHeater()
    ensures SetDryRun(New(k), mode).options == Dict(map['S' := "50"])
    ensures Line(SetDryRun(New(k), mode), false) == k.Name() + " S50"
  {
    HeaterDryRunOptions(k, mode);
    var c := SetDryRun(New(k), mode);
    SingleEntryText('S', "50", c.dryRun);
    OptionWordText('S', "50", " S50");
    UnnumberedLine(c, false);
  }

}

=== FILE: ordering.dfy ===
/** Python's `sorted(d.keys())` for the one-character option keys of a command:
    the keys as a strictly increasing sequence of characters. */
module Ordering {

  predicate Increasing(ks: seq<char>) {
    forall i, j :: 0 <= i < j < |ks| ==> ks[i] < ks[j]
  }

  lemma {:induction false} MinExists(s: set<char>)
    requires s != {}
    ensures exists k :: k in s && forall c :: c in s ==> k <= c
    decreases |s|
  {
    var x :| x in s;
    if s != {x} {
      MinExists(s - {x});
      var y :| y in s - {x} && forall c :: c in s - {x} ==> y <= c;
      var m := if x < y then x else y;
      forall c | c in s
        ensures m <= c
      {
        if c != x {
          assert c in s - {x};
        }
      }
    } else {
      assert forall c :: c in s ==> x <= c;
    }
  }

  function MinChar(s: set<char>): (k: char)
    requires s != {}
    ensures k in s && forall c :: c in s ==> k <= c
  {
    MinExists(s);
    var k :| k in s && forall c :: c in s ==> k <= c;
    k
  }

  /** The members of `s` in ascending order. */
  function SortedChars(s: set<char>): (ks: seq<char>)
    ensures Increasing(ks)
    ensures forall c :: c in ks <==> c in s
    decreases |s|
  {
    if s == {} then []
    else
      var k := MinChar(s);
      var rest := SortedChars(s - {k});
      [k] + rest
  }

  /** Two increasing sequences holding the same characters are equal: the
      sorted order of a key set is unique. */
  lemma {:induction false} IncreasingUnique(a: seq<char>, b: seq<char>)
    requires Increasing(a) && Increasing(b)
    requires forall c :: c in a <==> c in b
    ensures a == b
    decreases |a| + |b|
  {
    assert |b| > 0 ==> b[0] in a;
    assert |a| > 0 ==> a[0] in b;
    if |a| > 0 {
      assert a[0] in b;
      assert b[0] in a;
      assert a[0] == b[0];
      forall c
        ensures c in a[1..] <==> c in b[1..]
      {
        if c in a[1..] {
          assert c in b && c != b[0];
        }
        if c in b[1..] {
          assert c in a && c != a[0];
        }
      }
      IncreasingUnique(a[1..], b[1..]);
      assert a == [a[0]] + a[1..] && b == [b[0]] + b[1..];
    }
  }

  /** `ks` with every occurrence of `x` removed. */
  function Without(ks: seq<char>, x: char): (r: seq<char>)
    ensures forall c :: c in r <==> c in ks && c != x
  {
    if |ks| == 0 then []
    else if ks[0] == x then Without(ks[1..], x)
    else [ks[0]] + Without(ks[1..], x)
  }

  lemma {:induction false} WithoutIncreasing(ks: seq<char>, x: char)
    requires Increasing(ks)
    ensures Increasing(Without(ks, x))
    decreases |ks|
  {
    if |ks| > 0 {
      WithoutIncreasing(ks[1..], x);
      var r := Without(ks[1..], x);
      if ks[0] != x {
        var w := [ks[0]] + r;
        forall i, j | 0 <= i < j < |w|
          ensures w[i] < w[j]
        {
          assert w[j] == r[j - 1] && w[j] in ks[1..];
          if i > 0 {
            assert w[i] == r[i - 1];
          }
        }
      }
    }
  }

  /** Sorting a key set without `x` is sorting the full set and dropping `x`. */
  lemma SortedWithout(s: set<char>, x: char)
    ensures SortedChars(s - {x}) == Without(SortedChars(s), x)
  {
    WithoutIncreasing(SortedChars(s), x);
    IncreasingUnique(SortedChars(s - {x}), Without(SortedChars(s), x));
  }

}

=== FILE: parse.dfy ===
/** Reading a command from text: `_parseLine` (comment, line number,
    checksum), `parseLine` (family check), `parseOptions`, the constructor's
    checksum verification, and `identifyLine`'s dispatch on the first token. */
module Parse {

  import opened Results
  import opened Strings
  import opened Registry
  import opened Commands

  /** `block.startswith(";")` */
  predicate IsMarker(t: string) {
    |t| > 0 && t[0] == ';'
  }

  /** The position of the first comment-marker token, or `|ts|` when there is none. */
  function FirstMarker(ts: seq<string>): (p: nat)
    ensures p <= |ts|
    ensures forall i :: 0 <= i < p ==> !IsMarker(ts[i])
    ensures p < |ts| ==> IsMarker(ts[p])
  {
    if |ts| == 0 || IsMarker(ts[0]) then 0 else 1 + FirstMarker(ts[1..])
  }

  /** Comment handling of `_parseLine` as evidently intended: the tokens after
      the first marker token become the comment and are dropped, together with
      the marker token itself. */
  function StripComment(ts: seq<string>): (r: (seq<string>, Option<seq<string>>))
    ensures forall i :: 0 <= i < |r.0| ==> !IsMarker(r.0[i])
    ensures r.1.None? <==> forall i :: 0 <= i < |ts| ==> !IsMarker(ts[i])
    ensures r.1.None? ==> r.0 == ts
    ensures r.1.Some? ==> |r.0| < |ts| && IsMarker(ts[|r.0|]) && ts == r.0 + [ts[|r.0|]] + r.1.value
  {
    var p := FirstMarker(ts);
    if p == |ts| then (ts, None)
    else
      assert ts == ts[..p] + [ts[p]] + ts[p + 1..];
      (ts[..p], Some(ts[p + 1..]))
  }

  /** The tokens kept in front of a comment are words when the line's are. */
  lemma StripCommentWords(ts: seq<string>)
    requires AllWords(ts)
    ensures AllWords(StripComment(ts).0)
  {
    var r := StripComment(ts);
    if r.1.Some? {
      assert forall i :: 0 <= i < |r.0| ==> r.0[i] == ts[i];
    }
  }

  /** The comment loop of `_parseLine` as written. It iterates over the
      original token list while `line` is rebound to the truncated list, and
      finds each marker with `line.index`, which raises `ValueError` when the
      marker is no longer in `line`. */
  function StripCommentAsWritten(ts: seq<string>): (r: Result<(seq<string>, Option<seq<string>>), Failure>)
    ensures r.Ok? ==> r.value.0 <= ts
    ensures (forall j :: 0 <= j < |ts| ==> !IsMarker(ts[j])) ==> r == Ok((ts, None))
  {
    CommentLoop(ts, 0, ts, None)
  }

  function CommentLoop(ts: seq<string>, i: nat, line: seq<string>, comment: Option<seq<string>>)
    : (r: Result<(seq<string>, Option<seq<string>>), Failure>)
    requires i <= |ts|
    ensures r.Ok? ==> r.value.0 <= line
    ensures (forall j :: i <= j < |ts| ==> !IsMarker(ts[j])) ==> r == Ok((line, comment))
    decreases |ts| - i
  {
    if i == |ts| then Ok((line, comment))
    else if IsMarker(ts[i]) then
      if ts[i] in line then
        var pos := FirstIndex(line, ts[i]);
        CommentLoop(ts, i + 1, line[..pos], Some(line[pos + 1..]))
      else Err(MarkerNotFound)
    else CommentLoop(ts, i + 1, line, comment)
  }

  /** The letters of a token list: `[option[0] for option in options]` as a set. */
  function LettersOf(ts: seq<string>): (r: set<char>)
    requires forall i :: 0 <= i < |ts| ==> |ts[i]| > 0
  {
    if |ts| == 0 then {} else {ts[0][0]} + LettersOf(ts[1..])
  }

  /** A letter is in `LettersOf(ts)` exactly when some token starts with it. */
  lemma {:induction false} LettersOfMembers(ts: seq<string>)
    requires forall i :: 0 <= i < |ts| ==> |ts[i]| > 0
    ensures forall i :: 0 <= i < |ts| ==> ts[i][0] in LettersOf(ts)
    ensures forall c :: c in LettersOf(ts) ==> exists i :: 0 <= i < |ts| && ts[i][0] == c
    decreases |ts|
  {
    if |ts| > 0 {
      LettersOfMembers(ts[1..]);
      assert forall i :: 1 <= i < |ts| ==> ts[i] == ts[1..][i - 1];
      forall c | c in LettersOf(ts)
        ensures exists i :: 0 <= i < |ts| && ts[i][0] == c
      {
        if c != ts[0][0] {
          var j :| 0 <= j < |ts[1..]| && ts[1..][j][0] == c;
          assert ts[j + 1][0] == c;
        }
      }
    }
  }

  /** No later token of `ts` has the same letter as `ts[i]`. */
  predicate LastWithLetter(ts: seq<string>, i: nat)
    requires i < |ts| && forall j :: 0 <= j < |ts| ==> |ts[j]| > 0
  {
    forall j :: i < j < |ts| ==> ts[j][0] != ts[i][0]
  }

  /** The dict `parseOptions` fills for a letter-list class: each letter maps
      to the rest of a token carrying that letter (the last one, as
      `OptionsOfLastWins` shows). */
  function OptionsOf(ts: seq<string>): (m: map<char, string>)
    requires forall i :: 0 <= i < |ts| ==> |ts[i]| > 0
    ensures m.Keys == LettersOf(ts)
    decreases |ts|
  {
    if |ts| == 0 then map[]
    else
      var rest := OptionsOf(ts[1..]);
      var k := ts[0][0];
      if k in rest then rest else rest[k := ts[0][1..]]
  }

  /** Later tokens overwrite earlier ones: each letter maps to the value of
      the last token that carries it. */
  lemma {:induction false} OptionsOfLastWins(ts: seq<string>)
    requires forall i :: 0 <= i < |ts| ==> |ts[i]| > 0
    ensures forall i :: 0 <= i < |ts| && LastWithLetter(ts, i) ==>
              ts[i][0] in OptionsOf(ts) && OptionsOf(ts)[ts[i][0]] == ts[i][1..]
    decreases |ts|
  {
    if |ts| > 0 {
      var rest := ts[1..];
      OptionsOfLastWins(rest);
      LettersOfMembers(ts);
      LettersOfMembers(rest);
      forall i | 0 <= i < |ts| && LastWithLetter(ts, i)
        ensures ts[i][0] in OptionsOf(ts) && OptionsOf(ts)[ts[i][0]] == ts[i][1..]
      {
        if i > 0 {
          assert rest[i - 1] == ts[i];
          assert LastWithLetter(rest, i - 1);
        } else {
          assert ts[0][0] !in LettersOf(rest) by {
            forall j | 0 <= j < |rest|
              ensures rest[j][0] != ts[0][0]
            {
              assert rest[j] == ts[j + 1];
            }
          }
        }
      }
    }
  }

  /** `parseOptions` for a class declaring the letters `allowed` (its
      family letter included): unknown letters are an error, otherwise the
      last value given for each letter is kept. */
  function CheckLetters(allowed: set<char>, ts: seq<string>): (r: Result<Options, Failure>)
    requires forall i :: 0 <= i < |ts| ==> |ts[i]| > 0
    ensures r.Ok? <==> LettersOf(ts) <= allowed
    ensures r.Ok? ==> r.value == Dict(OptionsOf(ts))
    ensures r.Err? ==> r.error == UnknownOptions(LettersOf(ts) - allowed)
  {
    if LettersOf(ts) <= allowed then Ok(Dict(OptionsOf(ts)))
    else Err(UnknownOptions(LettersOf(ts) - allowed))
  }

  /** `parseOptions` for the option declaration of `k`. */
  function ParseOptions(k: Kind, ts: seq<string>): (r: Result<Options, Failure>)
    requires AllWords(ts)
    ensures k.Decl().Undeclared? ==> r == Ok(Absent)
    ensures k.Decl().FreeText? ==> r == Ok(Tokens(ts))
    ensures k.Decl().Letters? ==>
              (r.Ok? <==> LettersOf(ts) <= AllowedKeys(k))
              && (r.Ok? ==> r.value == Dict(OptionsOf(ts)))
              && (r.Err? ==> r.error == UnknownOptions(LettersOf(ts) - AllowedKeys(k)))
  {
    match k.Decl()
    case Undeclared => Ok(Absent)
    case FreeText => Ok(Tokens(ts))
    case Letters(_) => CheckLetters(AllowedKeys(k), ts)
  }

  /** What is left of a parsed line after the prefixes and the suffix come off. */
  datatype Framed = Framed(command: Command, words: seq<string>)

  /** The trailing `*` token of what is left of a line, if there is one,
      becomes the checksum. */
  function TakeChecksum(c: Command, rest: seq<string>): (f: Framed)
    requires c.checksum.None? && |rest| > 0 && AllWords(rest)
    ensures AllWords(f.words)
    ensures f.command == c.(checksum := f.command.checksum)
    ensures f.command.checksum.Some? <==> rest[|rest| - 1][0] == '*'
    ensures rest == f.words + (if f.command.checksum.Some? then ["*" + f.command.checksum.value] else [])
  {
    var last := rest[|rest| - 1];
    if last[0] == '*' then
      assert rest == rest[..|rest| - 1] + ["*" + last[1..]] by {
        assert last == "*" + last[1..];
      }
      Framed(c.(checksum := Some(last[1..])), rest[..|rest| - 1])
    else Framed(c, rest)
  }

  /** `_parseLine`: comment, then a leading `N` token, then a trailing `*` token. */
  function ParsePrefixes(k: Kind, tokens: seq<string>): (r: Result<Framed, Failure>)
    requires AllWords(tokens)
    ensures r.Ok? ==> AllWords(r.value.words) && r.value.command.kind == k
    ensures r.Ok? ==> r.value.command == New(k).(comment := r.value.command.comment,
                                                 lineNumber := r.value.command.lineNumber,
                                                 checksum := r.value.command.checksum)
    ensures r.Ok? ==> r.value.command.comment == StripComment(tokens).1
  {
    var line := StripComment(tokens).0;
    StripCommentWords(tokens);
    var c0 := New(k).(comment := StripComment(tokens).1);
    if |line| == 0 then Err(MissingToken)
    else
      var n := if line[0][0] == 'N' then 1 else 0;
      var numbered := if n == 1 then SetLineNumber(c0, line[0][1..]) else Ok(c0);
      var rest := line[n..];
      assert line == line[..n] + rest;
      if numbered.Err? then Err(numbered.error)
      else if |rest| == 0 then Err(MissingToken)
      else Ok(TakeChecksum(numbered.value, rest))
  }

  /** When `_parseLine` fails: nothing is left of the line, or its N token
      does not hold an integer, in which case the failure is the one the line
      number raised. */
  lemma PrefixesFail(k: Kind, tokens: seq<string>)
    requires AllWords(tokens)
    ensures AllWords(StripComment(tokens).0)
    ensures var line, r := StripComment(tokens).0, ParsePrefixes(k, tokens);
            && (r.Err? <==> |line| == 0 || (line[0][0] == 'N' && (SetLineNumber(New(k), line[0][1..]).Err? || |line| == 1)))
            && (r.Err? ==> r.error == if |line| > 0 && line[0][0] == 'N' && SetLineNumber(New(k), line[0][1..]).Err?
                                      then SetLineNumber(New(k), line[0][1..]).error
                                      else MissingToken)
  {
    StripCommentWords(tokens);
  }

  /** How `_parseLine` takes a line apart: what is left is the line without
      its N token and without its trailing checksum token, and the two become
      the line number and the checksum. */
  lemma PrefixesFrame(k: Kind, tokens: seq<string>)
    requires AllWords(tokens)
    ensures AllWords(StripComment(tokens).0)
    ensures var line, r := StripComment(tokens).0, ParsePrefixes(k, tokens);
            r.Ok? ==>
              var c := r.value.command;
              var n := if c.lineNumber.Some? then 1 else 0;
              && n < |line|
              && (c.lineNumber.Some? <==> line[0][0] == 'N')
              && (c.lineNumber.Some? ==> c.lineNumber == ParseInt(line[0][1..]))
              && (c.checksum.Some? <==> line[|line| - 1][0] == '*')
              && line == line[..n] + r.value.words + (if c.checksum.Some? then ["*" + c.checksum.value] else [])
  {
    StripCommentWords(tokens);
    var line := StripComment(tokens).0;
    var r := ParsePrefixes(k, tokens);
    if r.Ok? {
      var n := if line[0][0] == 'N' then 1 else 0;
      var c0 := New(k).(comment := StripComment(tokens).1);
      var numbered := if n == 1 then SetLineNumber(c0, line[0][1..]) else Ok(c0);
      assert r.value == TakeChecksum(numbered.value, line[n..]);
      ChecksumAfterNumber(numbered.value, line, n);
    }
  }

  /** The checksum comes off the end of the line after its N token. */
  lemma ChecksumAfterNumber(c: Command, line: seq<string>, n: nat)
    requires c.checksum.None? && n < |line| && AllWords(line)
    ensures AllWords(line[n..])
    ensures var f := TakeChecksum(c, line[n..]);
            && f.command.lineNumber == c.lineNumber
            && (f.command.checksum.Some? <==> line[|line| - 1][0] == '*')
            && line == line[..n] + f.words + (if f.command.checksum.Some? then ["*" + f.command.checksum.value] else [])
  {
    var rest := line[n..];
    assert forall i :: 0 <= i < |rest| ==> rest[i] == line[n + i];
    assert line == line[..n] + rest;
    assert rest[|rest| - 1] == line[|line| - 1];
  }

  /** The constructor with a token list: `parseLine`, then the checksum check.
      `verifyCheckSum` is called but not defined anywhere, so a checksum with
      verification requested is an error. */
  function ParseTokens(k: Kind, tokens: seq<string>, verify: bool): (r: Result<Command, Failure>)
    requires AllWords(tokens)
    ensures r.Ok? ==> r.value.kind == k && WellFormed(r.value)
    ensures r.Ok? ==> !r.value.finished && !r.value.timedOut && !r.value.dryRun && r.value.okCommand
    ensures r.Ok? ==> r.value.comment == StripComment(tokens).1
    ensures r.Ok? && verify ==> r.value.checksum.None?
  {
    var p := ParsePrefixes(k, tokens);
    if p.Err? then Err(p.error)
    else
      var f := p.value;
      if |f.words| == 0 then Err(MissingToken)
      else if f.words[0][0] != k.Family() then Err(WrongFamily)
      else
        var o := ParseOptions(k, f.words[1..]);
        if o.Err? then Err(o.error)
        else if f.command.checksum.Some? && verify then Err(ChecksumUnverifiable)
        else Ok(f.command.(options := o.value))
  }

  /** How `_parseLine` turns the framed words into the command. */
  lemma TokensAssembled(k: Kind, tokens: seq<string>, verify: bool)
    requires AllWords(tokens)
    ensures var p := ParsePrefixes(k, tokens);
            p.Ok? && |p.value.words| > 0 ==> AllWords(p.value.words[1..])
    // The options are those the declaration accepts from the words after the
    // command's own; a failure of the framing, a word of the wrong family, an
    // option the declaration refuses or a checksum that verification would
    // need fails the whole line.
    ensures var p, r := ParsePrefixes(k, tokens), ParseTokens(k, tokens, verify);
            p.Err? ==> r == Err(p.error)
    ensures var p, r := ParsePrefixes(k, tokens), ParseTokens(k, tokens, verify);
            p.Ok? ==>
              var f := p.value;
              if |f.words| == 0 then r == Err(MissingToken)
              else if f.words[0][0] != k.Family() then r == Err(WrongFamily)
              else
                var o := ParseOptions(k, f.words[1..]);
                && (o.Err? ==> r == Err(o.error))
                && (o.Ok? && f.command.checksum.Some? && verify ==> r == Err(ChecksumUnverifiable))
                && (o.Ok? && !(f.command.checksum.Some? && verify) ==> r == Ok(f.command.(options := o.value)))
  {
  }

  /** `CodeCommand(line, verifyCheckSum)` for a class `k` and a text line; an
      empty string is falsy and leaves the command unparsed. */
  function Construct(k: Kind, line: string, verify: bool): (r: Result<Command, Failure>)
    ensures line == "" ==> r == Ok(New(k))
    ensures r.Ok? ==> r.value.kind == k && WellFormed(r.value)
    ensures line != "" && Split(line) == [] ==> r == Err(MissingToken)
  {
    if line == "" then Ok(New(k)) else ParseTokens(k, Split(line), verify)
  }

  /** `identifyLine`: no command for blank lines and for lines whose first
      token starts with `N`, `;` or any letter but G and M; otherwise the class
      named by the exact first token parses the whole token list. */
  function Identify(s: string): (r: Result<Option<Command>, Failure>)
    ensures r == Ok(None) <==> Split(s) == [] || Split(s)[0][0] !in {'G', 'M'}
    ensures r.Ok? && r.value.Some? ==> r.value.value.kind.Name() == Split(s)[0]
    ensures r.Ok? && r.value.Some? ==> WellFormed(r.value.value) && r.value.value.checksum.None?
    ensures Split(s) != [] && Split(s)[0][0] in {'G', 'M'} && Lookup(Split(s)[0]).None? ==>
              r == Err(UnknownCommand(Split(s)[0]))
    ensures Split(s) != [] && Split(s)[0][0] in {'G', 'M'} && Lookup(Split(s)[0]).Some? ==>
              var p := ParseTokens(Lookup(Split(s)[0]).value, Split(s), true);
              (r.Err? <==> p.Err?) && (r.Err? ==> r.error == p.error) && (r.Ok? ==> r.value == Some(p.value))
  {
    var ts := Split(s);
    if |ts| == 0 then Ok(None)
    else if ts[0][0] == 'N' then Ok(None)
    else if ts[0][0] == 'G' || ts[0][0] == 'M' then
      match Lookup(ts[0])
      case None => Err(UnknownCommand(ts[0]))
      case Some(k) =>
        match ParseTokens(k, ts, true)
        case Ok(c) => Ok(Some(c))
        case Err(e) => Err(e)
    else Ok(None)
  }

}

=== FILE: parse_facts.dfy ===
/** Facts about reading command lines: the comment loop of `_parseLine` as
    written against the corrected comment handling, and what the
    constructor's own class check does and does not look at. */
module ParseFacts {

  import opened Results
  import opened Strings
  import opened Registry
  import opened Commands
  import opened Parse
  import LineFacts

  /** At least two tokens of the line open a comment. */
  predicate TwoMarkers(ts: seq<string>) {
    exists i, j :: 0 <= i < j < |ts| && IsMarker(ts[i]) && IsMarker(ts[j])
  }

  /** Non-marker tokens leave the comment loop's state alone. */
  lemma {:induction false} LoopSkip(ts: seq<string>, i: nat, k: nat, line: seq<string>, comment: Option<seq<string>>)
    requires i <= k <= |ts|
    requires forall j :: i <= j < k ==> !IsMarker(ts[j])
    ensures CommentLoop(ts, i, line, comment) == CommentLoop(ts, k, line, comment)
    decreases k - i
  {
    if i < k {
      LoopSkip(ts, i + 1, k, line, comment);
    }
  }

  /** Once the line has been cut before a marker, any later marker is no
      longer in it and `line.index` fails. */
  lemma {:induction false} LoopLaterMarker(ts: seq<string>, i: nat, k: nat, line: seq<string>, comment: Option<seq<string>>)
    requires i <= k < |ts| && IsMarker(ts[k])
    requires forall j :: i <= j < k ==> !IsMarker(ts[j])
    requires forall j :: 0 <= j < |line| ==> !IsMarker(line[j])
    ensures CommentLoop(ts, i, line, comment) == Err(MarkerNotFound)
  {
    LoopSkip(ts, i, k, line, comment);
    assert ts[k] !in line by {
      forall j | 0 <= j < |line|
        ensures line[j] != ts[k]
      {
        assert !IsMarker(line[j]);
      }
    }
  }

  /** The loop reaches the first marker with the line unchanged and cuts it there. */
  lemma LoopFirstMarker(ts: seq<string>)
    requires FirstMarker(ts) < |ts|
    ensures CommentLoop(ts, 0, ts, None)
         == CommentLoop(ts, FirstMarker(ts) + 1, ts[..FirstMarker(ts)], Some(ts[FirstMarker(ts) + 1..]))
  {
    var p := FirstMarker(ts);
    LoopSkip(ts, 0, p, ts, None);
    FirstIndexAt(ts, ts[p], p);
    assert CommentLoop(ts, p, ts, None) == CommentLoop(ts, p + 1, ts[..p], Some(ts[p + 1..]));
  }

  /** The position of the first marker after the first one, if there is one. */
  lemma SecondMarker(ts: seq<string>, p: nat) returns (j: nat)
    requires p < |ts| && exists j :: p < j < |ts| && IsMarker(ts[j])
    ensures p < j < |ts| && IsMarker(ts[j])
    ensures forall i :: p < i < j ==> !IsMarker(ts[i])
  {
    var d := FirstMarker(ts[p + 1..]);
    j := p + 1 + d;
    assert j < |ts| by {
      var j0 :| p < j0 < |ts| && IsMarker(ts[j0]);
      assert IsMarker(ts[p + 1..][j0 - p - 1]);
    }
    assert ts[j] == ts[p + 1..][d];
    forall i | p < i < j
      ensures !IsMarker(ts[i])
    {
      assert ts[i] == ts[p + 1..][i - p - 1];
    }
  }

  /** The comment loop as written agrees with the corrected comment handling
      on lines with at most one marker token, and raises `ValueError` on
      every line with two or more. */
  lemma CommentLoopAsWritten(ts: seq<string>)
    ensures TwoMarkers(ts) ==> StripCommentAsWritten(ts) == Err(MarkerNotFound)
    ensures !TwoMarkers(ts) ==> StripCommentAsWritten(ts) == Ok(StripComment(ts))
  {
    var p := FirstMarker(ts);
    if p == |ts| {
      LoopSkip(ts, 0, |ts|, ts, None);
      assert !TwoMarkers(ts);
    } else {
      LoopFirstMarker(ts);
      var line := ts[..p];
      var comment := Some(ts[p + 1..]);
      assert forall j :: 0 <= j < |line| ==> !IsMarker(line[j]);
      if exists j :: p < j < |ts| && IsMarker(ts[j]) {
        var j := SecondMarker(ts, p);
        LoopLaterMarker(ts, p + 1, j, line, comment);
        assert TwoMarkers(ts) by {
          assert IsMarker(ts[p]) && IsMarker(ts[j]);
        }
      } else {
        LoopSkip(ts, p + 1, |ts|, line, comment);
        assert !TwoMarkers(ts);
      }
    }
  }

  /** The smallest line that shows the discrepancy: two comment markers. */
  lemma TwoCommentsExample(ts: seq<string>)
    requires ts == ["G1", "X10", ";a", ";b"]
    ensures StripCommentAsWritten(ts) == Err(MarkerNotFound)
    ensures StripComment(ts) == (["G1", "X10"], Some([";b"]))
  {
    assert IsMarker(ts[2]) && IsMarker(ts[3]);
    CommentLoopAsWritten(ts);
    assert FirstMarker(ts) == 2 by {
      assert !IsMarker(ts[0]) && !IsMarker(ts[1]);
      assert FirstMarker(ts[2..]) == 0;
      assert ts[1..][1..] == ts[2..];
    }
    assert ts[..2] == ["G1", "X10"] && ts[3..] == [";b"];
  }

  /** The token list after a leading non-marker word keeps that word in front. */
  lemma StripCommentCons(w: string, ts: seq<string>)
    requires !IsMarker(w)
    ensures StripComment([w] + ts) == ([w] + StripComment(ts).0, StripComment(ts).1)
  {
    assert ([w] + ts)[1..] == ts;
    var p := FirstMarker(ts);
    assert FirstMarker([w] + ts) == 1 + p;
    if p < |ts| {
      assert ([w] + ts)[..1 + p] == [w] + ts[..p];
      assert ([w] + ts)[1 + p + 1..] == ts[p + 1..];
    }
  }

  /** A word in front of words gives words. */
  lemma ConsWords(w: string, rest: seq<string>)
    requires IsWord(w) && AllWords(rest)
    ensures AllWords([w] + rest)
  {
    assert forall i :: 0 < i < |[w] + rest| ==> ([w] + rest)[i] == rest[i - 1];
  }

  /** The trailing `*` token `_parseLine` takes off as the checksum, and the
      tokens left in front of it. */
  function TrailingChecksum(body: seq<string>): (Option<string>, seq<string>)
    requires AllWords(body)
  {
    if |body| > 0 && body[|body| - 1][0] == '*' then (Some(body[|body| - 1][1..]), body[..|body| - 1])
    else (None, body)
  }

  /** `_parseLine` on a line whose first word starts with a family letter:
      only the comment and the trailing checksum come off, and the first word
      is kept as it is. */
  lemma FramedCons(k: Kind, w: string, rest: seq<string>)
    requires IsWord(w) && AllWords(rest) && (w[0] == 'G' || w[0] == 'M')
    ensures AllWords([w] + rest)
    ensures AllWords(StripComment(rest).0)
    ensures ParsePrefixes(k, [w] + rest)
         == Ok(Framed(New(k).(comment := StripComment(rest).1,
                              checksum := TrailingChecksum(StripComment(rest).0).0),
                      [w] + TrailingChecksum(StripComment(rest).0).1))
  {
    ConsWords(w, rest);
    StripCommentCons(w, rest);
    StripCommentWords(rest);
    var body := StripComment(rest).0;
    var line := [w] + body;
    var c0 := New(k).(comment := StripComment(rest).1);
    assert line[0] == w;
    assert line[|line| - 1][0] == '*' <==> |body| > 0 && body[|body| - 1][0] == '*' by {
      if |body| > 0 {
        assert line[|line| - 1] == body[|body| - 1];
      }
    }
    if |body| > 0 && body[|body| - 1][0] == '*' {
      assert line[..|line| - 1] == [w] + body[..|body| - 1];
      assert line[|line| - 1] == body[|body| - 1];
    }
  }

  /** `identifyLine` fails on a known command word followed by an option
      letter its declaration does not allow, naming the letters refused. */
  lemma UnknownLetterRejected(s: string, k: Kind, rest: seq<string>)
    requires Split(s) == [k.Name()] + rest && AllWords(rest)
    requires k.Decl().Letters?
    requires forall i :: 0 <= i < |rest| ==> !IsMarker(rest[i])
    requires |rest| > 0 ==> rest[|rest| - 1][0] != '*'
    requires !(LettersOf(rest) <= AllowedKeys(k))
    ensures Identify(s) == Err(UnknownOptions(LettersOf(rest) - AllowedKeys(k)))
  {
    var ts := Split(s);
    assert ts[0] == k.Name();
    NameStartsWithFamily(k);
    LookupName(k);
    FramedCons(k, k.Name(), rest);
    assert StripComment(rest).0 == rest;
    assert TrailingChecksum(rest).1 == rest;
    TokensAssembled(k, ts, true);
    assert ([k.Name()] + rest)[1..] == rest;
  }

  /** `identifyLine` fails on a known command word with a trailing checksum
      whose options would otherwise be accepted: it always asks for
      verification, and `verifyCheckSum` is defined nowhere. */
  lemma ChecksumRefused(s: string, k: Kind, rest: seq<string>, sum: string)
    requires Split(s) == [k.Name()] + rest + ["*" + sum]
    requires forall i :: 0 <= i < |rest| ==> !IsMarker(rest[i])
    requires AllWords(rest) && ParseOptions(k, rest).Ok?
    ensures Identify(s) == Err(ChecksumUnverifiable)
  {
    var ts := Split(s);
    var body := rest + ["*" + sum];
    WordsOfCons(ts, k.Name(), body);
    NameStartsWithFamily(k);
    LookupName(k);
    ChecksumBody(rest, sum);
    FramedCons(k, k.Name(), body);
    TokensAssembled(k, ts, true);
    assert ([k.Name()] + rest)[1..] == rest;
  }

  /** The words of a line are its first word and the words after it. */
  lemma WordsOfCons(ts: seq<string>, w: string, body: seq<string>)
    requires AllWords(ts) && ts == [w] + body
    ensures IsWord(w) && AllWords(body)
  {
    assert ts[0] == w;
    assert forall i :: 0 <= i < |body| ==> body[i] == ts[i + 1];
  }

  /** Option words followed by a checksum word: no comment comes off, and
      the checksum word does. */
  lemma ChecksumBody(rest: seq<string>, sum: string)
    requires forall i :: 0 <= i < |rest| ==> !IsMarker(rest[i])
    requires AllWords(rest + ["*" + sum])
    ensures StripComment(rest + ["*" + sum]) == (rest + ["*" + sum], None)
    ensures TrailingChecksum(rest + ["*" + sum]) == (Some(sum), rest)
  {
    var body := rest + ["*" + sum];
    assert forall i :: 0 <= i < |body| ==> !IsMarker(body[i]) by {
      assert ("*" + sum)[0] == '*';
      assert forall i :: 0 <= i < |rest| ==> body[i] == rest[i];
    }
    assert body[..|body| - 1] == rest;
  }

  /** The constructor of a class checks only the family letter of the class
      word: any first word starting with that letter gives the same result, so
      `M104("M105 S20")` builds an M104. */
  lemma OnlyFamilyChecked(k: Kind, w1: string, w2: string, rest: seq<string>, verify: bool)
    requires IsWord(w1) && IsWord(w2) && AllWords(rest)
    requires w1[0] == w2[0] == k.Family()
    ensures AllWords([w1] + rest) && AllWords([w2] + rest)
    ensures ParseTokens(k, [w1] + rest, verify) == ParseTokens(k, [w2] + rest, verify)
  {
    assert k.Family() == 'G' || k.Family() == 'M';
    FramedCons(k, w1, rest);
    FramedCons(k, w2, rest);
    TokensAssembled(k, [w1] + rest, verify);
    TokensAssembled(k, [w2] + rest, verify);
    var tail := TrailingChecksum(StripComment(rest).0).1;
    assert ([w1] + tail)[1..] == tail && ([w2] + tail)[1..] == tail;
  }


  /** The words after the class word of the numbered example line, spaced. */
  lemma NumberedSpaced(words: seq<string>)
    requires words == ["X10", "Y20", "F1500", "*37"]
    ensures Spaced(words) == " X10 Y20 F1500 *37"
  {
    SpacedTail();
    assert words[1..] == ["Y20", "F1500", "*37"];
  }

  lemma SpacedTail()
    ensures Spaced(["Y20", "F1500", "*37"]) == " Y20 F1500 *37"
  {
    SpacedLast();
    assert ["Y20", "F1500", "*37"][1..] == ["F1500", "*37"];
  }

  lemma SpacedLast()
    ensures Spaced(["F1500", "*37"]) == " F1500 *37"
  {
    assert Spaced(["*37"]) == " *37" by {
      assert ["*37"][1..] == [];
    }
    assert ["F1500", "*37"][1..] == ["*37"];
  }

  lemma NumberedWords(words: seq<string>)
    requires words == ["X10", "Y20", "F1500", "*37"]
    ensures AllWords(words) && IsWord("N12") && IsWord("G1")
  {
    assert forall i :: 0 <= i < |words| ==> IsWord(words[i]);
    assert IsWord("N12") && IsWord("G1");
  }

  lemma NumberedText(s: string)
    requires s == "N12 G1 X10 Y20 F1500 *37"
    ensures s == ("N12" + " ") + ("G1" + " X10 Y20 F1500 *37")
  {
  }

  /** The numbered example line splits into its six tokens. */
  lemma NumberedTokens(s: string)
    requires s == "N12 G1 X10 Y20 F1500 *37"
    ensures Split(s) == ["N12", "G1", "X10", "Y20", "F1500", "*37"]
  {
    var words := ["X10", "Y20", "F1500", "*37"];
    NumberedSpaced(words);
    NumberedWords(words);
    NumberedText(s);
    SplitNumbered("N12", "G1", words);
  }

  /** Its frame: the `N12` token sets the line number, the `*37` token the
      checksum, and four words remain. */
  lemma NumberedFrame(ts: seq<string>)
    requires ts == ["N12", "G1", "X10", "Y20", "F1500", "*37"]
    ensures AllWords(ts)
    ensures ParsePrefixes(G1, ts)
         == Ok(Framed(New(G1).(lineNumber := Some(12), checksum := Some("37")), ["G1", "X10", "Y20", "F1500"]))
  {
    assert AllWords(ts) by {
      assert forall i :: 0 <= i < |ts| ==> IsWord(ts[i]);
    }
    assert forall i :: 0 <= i < |ts| ==> !IsMarker(ts[i]);
    assert StripComment(ts) == (ts, None);
    LineFacts.TwelveText();
    assert ts[0][1..] == "12";
    assert SetLineNumber(New(G1), "12") == Ok(New(G1).(lineNumber := Some(12)));
    var rest := ts[1..];
    assert rest[|rest| - 1][1..] == "37";
    assert rest[..|rest| - 1] == ["G1", "X10", "Y20", "F1500"];
  }

  /** Its options: three letters G1 accepts, each with its value. */
  lemma NumberedOptions(ws: seq<string>)
    requires ws == ["X10", "Y20", "F1500"]
    ensures AllWords(ws)
    ensures ParseOptions(G1, ws) == Ok(Dict(map['X' := "10", 'Y' := "20", 'F' := "1500"]))
  {
    assert AllWords(ws) by {
      assert forall i :: 0 <= i < |ws| ==> IsWord(ws[i]);
    }
    assert ws[1..] == ["Y20", "F1500"];
    assert ws[1..][1..] == ["F1500"];
    assert ws[1..][1..][1..] == [];
    assert LettersOf(ws[1..][1..]) == {'F'};
    assert LettersOf(ws[1..]) == {'Y', 'F'};
    assert LettersOf(ws) == {'X', 'Y', 'F'};
    assert 'X' in AllowedKeys(G1) && 'Y' in AllowedKeys(G1) && 'F' in AllowedKeys(G1);
    assert OptionsOf(ws[1..][1..]) == map['F' := "1500"];
    assert OptionsOf(ws[1..]) == map['F' := "1500", 'Y' := "20"];
    assert OptionsOf(ws) == map['F' := "1500", 'Y' := "20", 'X' := "10"];
    assert LettersOf(ws) <= AllowedKeys(G1);
    assert G1.Decl().Letters?;
    assert ParseOptions(G1, ws) == Ok(Dict(OptionsOf(ws)));
    assert map['F' := "1500", 'Y' := "20", 'X' := "10"] == map['X' := "10", 'Y' := "20", 'F' := "1500"];
  }

  /** The numbered, checksummed line `N12 G1 X10 Y20 F1500 *37`.
      `identifyLine` gives no command for it, because its first token starts
      with `N`; `G1(line)` with the default verification fails, because a
      checksum is present and cannot be verified; `G1(line, False)` parses it,
      and printing it back drops the checksum and orders the options. */
  lemma NumberedChecksummedLine(s: string)
    requires s == "N12 G1 X10 Y20 F1500 *37"
    ensures Identify(s) == Ok(None)
    ensures Construct(G1, s, true) == Err(ChecksumUnverifiable)
    ensures Construct(G1, s, false).Ok?
    ensures Construct(G1, s, false).value.lineNumber == Some(12)
    ensures Construct(G1, s, false).value.checksum == Some("37")
    ensures Construct(G1, s, false).value.options == Dict(map['X' := "10", 'Y' := "20", 'F' := "1500"])
    ensures Line(Construct(G1, s, false).value, true) == "N12 G1 F1500 X10 Y20"
  {
    NumberedTokens(s);
    var ts := Split(s);
    NumberedFrame(ts);
    var ws := ["G1", "X10", "Y20", "F1500"];
    assert ws[1..] == ["X10", "Y20", "F1500"];
    NumberedOptions(ws[1..]);
    var m := map['X' := "10", 'Y' := "20", 'F' := "1500"];
    var c := New(G1).(lineNumber := Some(12), checksum := Some("37"), options := Dict(m));
    assert Construct(G1, s, false) == Ok(c);
    LineFacts.SortedOptionLine(m);
    var d := New(G1).(options := Dict(m), lineNumber := Some(12));
    assert LinePrefix(c, true) == LinePrefix(d, true);
  }
}

=== FILE: registry.dfy ===
/** The closed set of command classes `GCodeCommands` and `RepRapCommands`
    declare, with the class-level facts each one fixes: its family letter, its
    numeric code (parsed from the class name), the option letters it accepts,
    and its recommended time-out. */
module Registry {

  import opened Results
  import opened Strings

  /** What a command class declares as `supportedOptions`: nothing (`None`),
      a list of option letters, or `str()` for a free-text argument. */
  datatype OptionDecl = Undeclared | Letters(keys: set<char>) | FreeText

  datatype Kind =
    | G0 | G1 | G28 | G92
    | M21 | M22 | M23 | M24 | M25 | M26 | M27 | M28 | M29 | M30 | M31 | M32
    | M104 | M105 | M106 | M107 | M109 | M117 | M140 | M800 | M801
  {
    /** `command_family`: 'G' for `GCodeCommonCommand`, 'M' for `RepRapCommonCommand`. */
    function Family(): char {
      match this
      case G0 | G1 | G28 | G92 => 'G'
      case _ => 'M'
    }

    /** `command_class`: the integer in the class name after the family letter. */
    function Code(): nat {
      match this
      case G0 => 0
      case G1 => 1
      case G28 => 28
      case G92 => 92
      case M21 => 21
      case M22 => 22
      case M23 => 23
      case M24 => 24
      case M25 => 25
      case M26 => 26
      case M27 => 27
      case M28 => 28
      case M29 => 29
      case M30 => 30
      case M31 => 31
      case M32 => 32
      case M104 => 104
      case M105 => 105
      case M106 => 106
      case M107 => 107
      case M109 => 109
      case M117 => 117
      case M140 => 140
      case M800 => 800
      case M801 => 801
    }

    /** The class name, which is also what `line()` prints as the command word. */
    function Name(): string {
      [Family()] + NatToString(Code())
    }

    function Decl(): OptionDecl {
      match this
      case G0 | G1 => Letters({'X', 'Y', 'Z', 'E', 'F', 'S'})
      case G92 => Letters({'X', 'Y', 'Z', 'E'})
      case G28 | M31 => Undeclared
      case M21 | M22 => Letters({'P'})
      case M23 | M28 | M29 | M30 | M117 => FreeText
      case M24 | M25 | M27 | M32 | M800 | M801 => Letters({})
      case M26 | M104 | M105 | M106 | M107 | M109 | M140 => Letters({'S'})
    }

    /** `recommendedTimeOut`: -1 ("never time out") for the long-running
        heat-and-wait commands, unset for the rest. */
    function TimeoutHint(): Option<int> {
      match this
      case M109 | M800 => Some(-1)
      case _ => None
    }

    /** The commands whose `setDryRun` also forces the temperature to 50. */
    predicate IsHeater() {
      this == M104 || this == M109 || this == M140
    }
  }

  /** The option letters `parseOptions` accepts: the declared list plus the family letter. */
  function AllowedKeys(k: Kind): set<char>
    requires k.Decl().Letters?
  {
    k.Decl().keys + {k.Family()}
  }

  /** Every option letter a command may carry is an upper-case ASCII letter. */
  lemma AllowedKeysAreLetters(k: Kind)
    requires k.Decl().Letters?
    ensures forall c :: c in AllowedKeys(k) ==> 'A' <= c <= 'Z'
  {
  }

  /** The class registered under a family letter and code, if any. */
  function FromCode(family: char, code: nat): (r: Option<Kind>)
    ensures r.Some? ==> r.value.Family() == family && r.value.Code() == code
  {
    if family == 'G' then GCode(code)
    else if family == 'M' && code < 100 then SdCode(code)
    else if family == 'M' then MachineCode(code)
    else None
  }

  /** The G classes of `GCodeCommands`. */
  function GCode(code: nat): (r: Option<Kind>)
    ensures r.Some? ==> r.value.Family() == 'G' && r.value.Code() == code
  {
    if code == 0 then Some(G0)
    else if code == 1 then Some(G1)
    else if code == 28 then Some(G28)
    else if code == 92 then Some(G92)
    else None
  }

  /** The two-digit M classes of `RepRapCommands` (the SD-card commands). */
  function SdCode(code: nat): (r: Option<Kind>)
    ensures r.Some? ==> r.value.Family() == 'M' && r.value.Code() == code
  {
    if code == 21 then Some(M21)
    else if code == 22 then Some(M22)
    else if code == 23 then Some(M23)
    else if code == 24 then Some(M24)
    else if code == 25 then Some(M25)
    else if code == 26 then Some(M26)
    else if code == 27 then Some(M27)
    else if code == 28 then Some(M28)
    else if code == 29 then Some(M29)
    else if code == 30 then Some(M30)
    else if code == 31 then Some(M31)
    else if code == 32 then Some(M32)
    else None
  }

  /** The three-digit M classes of `RepRapCommands`. */
  function MachineCode(code: nat): (r: Option<Kind>)
    ensures r.Some? ==> r.value.Family() == 'M' && r.value.Code() == code
  {
    if code == 104 then Some(M104)
    else if code == 105 then Some(M105)
    else if code == 106 then Some(M106)
    else if code == 107 then Some(M107)
    else if code == 109 then Some(M109)
    else if code == 117 then Some(M117)
    else if code == 140 then Some(M140)
    else if code == 800 then Some(M800)
    else if code == 801 then Some(M801)
    else None
  }

  lemma FromCodeComplete(k: Kind)
    ensures FromCode(k.Family(), k.Code()) == Some(k)
  {
  }

  /** A name starts with its family letter, G or M. */
  lemma NameStartsWithFamily(k: Kind)
    ensures |k.Name()| > 0 && k.Name()[0] == k.Family() && (k.Family() == 'G' || k.Family() == 'M')
  {
  }

  /** A kind's name is its family letter followed by its code in canonical digits. */
  lemma NameOfCode(k: Kind, name: string)
    requires |name| >= 2 && Canonical(name[1..])
    requires k.Family() == name[0] && k.Code() == DigitsValue(name[1..])
    ensures k.Name() == name
  {
    CanonicalUnique(name[1..]);
    assert name == [name[0]] + name[1..];
  }

  /** `getattr(GCodeCommands(), name)` / `getattr(RepRapCommands(), name)`:
      the class whose name is exactly `name`, or `None` where Python raises
      `AttributeError`. */
  function Lookup(name: string): (r: Option<Kind>)
    ensures r.Some? ==> name == r.value.Name()
  {
    if |name| >= 2 && Canonical(name[1..]) then
      var r := FromCode(name[0], DigitsValue(name[1..]));
      if r.Some? then
        NameOfCode(r.value, name);
        r
      else r
    else None
  }

  /** Every registered class is found under its own name. */
  lemma LookupName(k: Kind)
    ensures Lookup(k.Name()) == Some(k)
  {
    var n := k.Name();
    assert n[1..] == NatToString(k.Code());
    FromCodeComplete(k);
  }

  /** Lookup succeeds exactly on the registered class names. */
  lemma LookupExact(name: string, k: Kind)
    ensures Lookup(name) == Some(k) <==> name == k.Name()
  {
    if name == k.Name() {
      LookupName(k);
    }
  }

}

=== FILE: results.dfy ===
/** The failure-carrying types used throughout the model: Python's `None`
    becomes `Option.None`, and a raised exception becomes `Result.Err`. */
module Results {

  datatype Option<+T> = None | Some(value: T)

  datatype Result<+T, +E> = Ok(value: T) | Err(error: E)

}

=== FILE: round_trip.dfy ===
/** Printing a command with `line()` and reading the text back with
    `identifyLine` (or the constructor) gives the same class and options. */
module RoundTrip {

  import opened Results
  import opened Strings
  import opened Ordering
  import opened Registry
  import opened Commands
  import opened Parse

  /** The commands whose printed line reads back unchanged: declared options
      only, no dry-run suppression, and option values without whitespace. */
  predicate Printable(c: Command) {
    && WellFormed(c)
    && !c.kind.Decl().FreeText?
    && !c.dryRun
    && (c.options.Dict? ==> forall k :: k in c.options.entries ==> SpaceFree(c.options.entries[k]))
  }

  /** The option words `line()` prints for options that read back. */
  function OptionWords(o: Options): seq<string> {
    match o
    case Dict(m) => EntryWords(m, SortedChars(m.Keys), false)
    case _ => []
  }

  /** Each printed option is one word: its letter followed by its value. */
  lemma {:induction false} EntryWordsShape(m: map<char, string>, ks: seq<char>)
    requires forall k :: k in ks ==> k in m && 'A' <= k <= 'Z'
    requires forall k :: k in m ==> SpaceFree(m[k])
    ensures AllWords(EntryWords(m, ks, false))
    ensures |EntryWords(m, ks, false)| == |ks|
    ensures forall i :: 0 <= i < |ks| ==> EntryWords(m, ks, false)[i] == [ks[i]] + m[ks[i]]
    decreases |ks|
  {
    if |ks| > 0 {
      assert forall k :: k in ks[1..] ==> k in ks;
      EntryWordsShape(m, ks[1..]);
      var w := [ks[0]] + m[ks[0]];
      assert SpaceFree(w) by {
        forall i | 0 < i < |w|
          ensures !IsSpace(w[i])
        {
          assert w[i] == m[ks[0]][i - 1];
        }
      }
    }
  }

  /** A word whose letter the later words do not carry adds its own entry. */
  lemma OptionsOfFresh(w: string, rest: seq<string>)
    requires |w| > 0 && forall i :: 0 <= i < |rest| ==> |rest[i]| > 0
    requires w[0] !in OptionsOf(rest)
    ensures OptionsOf([w] + rest) == OptionsOf(rest)[w[0] := w[1..]]
  {
    assert ([w] + rest)[1..] == rest;
  }

  /** Every printed option word carries at least its letter. */
  lemma {:induction false} EntryWordsNonEmpty(m: map<char, string>, ks: seq<char>)
    requires forall k :: k in ks ==> k in m
    ensures forall i :: 0 <= i < |EntryWords(m, ks, false)| ==> |EntryWords(m, ks, false)[i]| > 0
    decreases |ks|
  {
    if |ks| > 0 {
      assert forall k :: k in ks[1..] ==> k in ks;
      EntryWordsNonEmpty(m, ks[1..]);
    }
  }

  /** Reading back the words of a sorted dict rebuilds the dict. */
  lemma {:induction false} OptionsOfEntryWords(m: map<char, string>, ks: seq<char>)
    requires Increasing(ks)
    requires forall k :: k in ks ==> k in m
    ensures forall i :: 0 <= i < |EntryWords(m, ks, false)| ==> |EntryWords(m, ks, false)[i]| > 0
    ensures forall k :: k in OptionsOf(EntryWords(m, ks, false)) <==> k in ks
    ensures forall k :: k in ks ==> OptionsOf(EntryWords(m, ks, false))[k] == m[k]
    decreases |ks|
  {
    EntryWordsNonEmpty(m, ks);
    if |ks| > 0 {
      var w := [ks[0]] + m[ks[0]];
      var rest := EntryWords(m, ks[1..], false);
      var all := EntryWords(m, ks, false);
      assert all == [w] + rest;
      assert forall k :: k in ks[1..] ==> k in ks;
      OptionsOfEntryWords(m, ks[1..]);
      assert ks[0] !in ks[1..];
      assert w[0] == ks[0] && w[1..] == m[ks[0]];
      OptionsOfFresh(w, rest);
      var back := OptionsOf(all);
      assert forall k :: k in ks <==> k == ks[0] || k in ks[1..];
      forall k | k in ks
        ensures back[k] == m[k]
      {
        if k != ks[0] {
          assert k in ks[1..];
        }
      }
    }
  }

  /** Each word printed for a dict of letter keys starts with a capital letter. */
  lemma DictWordsLetters(m: map<char, string>)
    requires forall key :: key in m ==> 'A' <= key <= 'Z' && SpaceFree(m[key])
    ensures AllWords(EntryWords(m, SortedChars(m.Keys), false))
    ensures forall i :: 0 <= i < |EntryWords(m, SortedChars(m.Keys), false)| ==>
              'A' <= EntryWords(m, SortedChars(m.Keys), false)[i][0] <= 'Z'
  {
    var ks := SortedChars(m.Keys);
    var ws := EntryWords(m, ks, false);
    EntryWordsShape(m, ks);
    forall i | 0 <= i < |ws|
      ensures 'A' <= ws[i][0] <= 'Z'
    {
      assert ws[i][0] == ks[i] && ks[i] in m;
    }
  }

  /** Reading back the words printed for a dict gives the dict. */
  lemma DictWordsBack(m: map<char, string>)
    ensures forall i :: 0 <= i < |EntryWords(m, SortedChars(m.Keys), false)| ==>
              |EntryWords(m, SortedChars(m.Keys), false)[i]| > 0
    ensures OptionsOf(EntryWords(m, SortedChars(m.Keys), false)) == m
  {
    var ks := SortedChars(m.Keys);
    OptionsOfEntryWords(m, ks);
    var back := OptionsOf(EntryWords(m, ks, false));
    assert back.Keys == m.Keys;
    SameMap(back, m);
  }

  lemma SameMap(a: map<char, string>, b: map<char, string>)
    requires a.Keys == b.Keys && forall k :: k in a ==> a[k] == b[k]
    ensures a == b
  {
  }

  /** The words `line()` prints for a dict: one word per entry, reading back as the dict. */
  lemma DictWords(m: map<char, string>)
    requires forall key :: key in m ==> 'A' <= key <= 'Z' && SpaceFree(m[key])
    ensures AllWords(EntryWords(m, SortedChars(m.Keys), false))
    ensures forall i :: 0 <= i < |EntryWords(m, SortedChars(m.Keys), false)| ==>
              'A' <= EntryWords(m, SortedChars(m.Keys), false)[i][0] <= 'Z'
    ensures OptionsOf(EntryWords(m, SortedChars(m.Keys), false)) == m
  {
    DictWordsLetters(m);
    DictWordsBack(m);
  }

  /** The words of a dict of declared options read back as that dict. */
  lemma DictWordsFacts(allowed: set<char>, m: map<char, string>)
    requires forall key :: key in allowed ==> 'A' <= key <= 'Z'
    requires m.Keys <= allowed
    requires forall key :: key in m ==> SpaceFree(m[key])
    ensures AllWords(EntryWords(m, SortedChars(m.Keys), false))
    ensures forall i :: 0 <= i < |EntryWords(m, SortedChars(m.Keys), false)| ==>
              'A' <= EntryWords(m, SortedChars(m.Keys), false)[i][0] <= 'Z'
    ensures CheckLetters(allowed, EntryWords(m, SortedChars(m.Keys), false)) == Ok(Dict(m))
  {
    DictWords(m);
  }

  /** What `line()` prints after the class name, and what reading it back gives. */
  lemma OptionWordsFacts(c: Command)
    requires Printable(c)
    ensures OptionsText(c.options, c.dryRun) == Spaced(OptionWords(c.options))
    ensures AllWords(OptionWords(c.options))
    ensures forall i :: 0 <= i < |OptionWords(c.options)| ==>
              'A' <= OptionWords(c.options)[i][0] <= 'Z'
    ensures ParseOptions(c.kind, OptionWords(c.options)) == Ok(c.options)
  {
    if c.options.Dict? {
      AllowedKeysAreLetters(c.kind);
      DictWordsFacts(AllowedKeys(c.kind), c.options.entries);
    }
  }

  lemma NameIsWord(k: Kind)
    ensures IsWord(k.Name())
    ensures k.Name()[0] == k.Family() && (k.Family() == 'G' || k.Family() == 'M')
  {
    var f := k.Family();
    assert f == 'G' || f == 'M';
    LetterThenDigits(f, NatToString(k.Code()));
  }

  /** A letter followed by digits is one word. */
  lemma LetterThenDigits(f: char, d: string)
    requires 'A' <= f <= 'Z' && AllDigits(d)
    ensures IsWord([f] + d) && ([f] + d)[0] == f
  {
    assert forall i :: 0 < i < |[f] + d| ==> ([f] + d)[i] == d[i - 1];
  }

  /** The `N` word `line(True)` prints for a line number. */
  function NumberWords(c: Command, withLineNumber: bool): (ws: seq<string>)
    ensures |ws| <= 1
    ensures forall i :: 0 <= i < |ws| ==> IsWord(ws[i]) && ws[i][0] == 'N'
    ensures LinePrefix(c, withLineNumber) == if |ws| == 1 then ws[0] + " " else ""
    ensures |ws| == 1 ==> |ws[0]| > 0 && c.lineNumber.Some? && ParseInt(ws[0][1..]) == c.lineNumber && '.' !in ws[0][1..]
  {
    if withLineNumber && c.lineNumber.Some? then
      var t := IntToString(c.lineNumber.value);
      var w := LineNumberWord(c.lineNumber.value);
      assert forall i :: 0 < i < |w| ==> w[i] == t[i - 1];
      assert w[1..] == t;
      [w]
    else []
  }

  /** `line()` of a printable command splits into the optional line-number
      word, the class name, and one word per option in key order. */
  lemma LineWords(c: Command, withLineNumber: bool)
    requires Printable(c)
    ensures Split(Line(c, withLineNumber))
         == NumberWords(c, withLineNumber) + [c.kind.Name()] + OptionWords(c.options)
  {
    var words := OptionWords(c.options);
    assert OptionsText(c.options, c.dryRun) == Spaced(words) && AllWords(words) by {
      OptionWordsFacts(c);
    }
    NameIsWord(c.kind);
    SplitPrefixed(LinePrefix(c, withLineNumber), NumberWords(c, withLineNumber), c.kind.Name(), words);
  }

  /** `_parseLine` on a comment-free token list with an optional `N` word
      in front and no `*` word at the end. */
  lemma FrameWords(k: Kind, number: seq<string>, rest: seq<string>, n: Option<int>)
    requires |number| <= 1 && |rest| > 0
    requires AllWords(number + rest)
    requires forall i :: 0 <= i < |number + rest| ==> !IsMarker((number + rest)[i])
    requires |number| == 0 ==> n.None?
    requires |number| == 1 ==> n.Some? && |number[0]| > 0 && number[0][0] == 'N' && '.' !in number[0][1..] && ParseInt(number[0][1..]) == n
    requires |rest[0]| > 0 && rest[0][0] != 'N'
    requires |rest[|rest| - 1]| > 0 && rest[|rest| - 1][0] != '*'
    ensures ParsePrefixes(k, number + rest) == Ok(Framed(New(k).(lineNumber := n), rest))
  {
    var tokens := number + rest;
    assert StripComment(tokens) == (tokens, None);
    if |number| == 1 {
      assert tokens[0] == number[0];
      assert tokens[1..] == rest;
    } else {
      assert tokens == rest;
    }
  }

  /** The constructor on a comment-free, checksum-free token list: an
      optional `N` word, the class word, and the option words. */
  lemma ParseClean(k: Kind, number: seq<string>, head: string, words: seq<string>,
                   n: Option<int>, o: Options, verify: bool)
    requires |number| <= 1 && AllWords(number)
    requires |number| == 0 ==> n.None?
    requires |number| == 1 ==> n.Some? && number[0][0] == 'N' && '.' !in number[0][1..] && ParseInt(number[0][1..]) == n
    requires IsWord(head) && head[0] == k.Family() && (k.Family() == 'G' || k.Family() == 'M')
    requires AllWords(words) && forall i :: 0 <= i < |words| ==> !IsMarker(words[i])
    requires |words| > 0 ==> words[|words| - 1][0] != '*'
    requires ParseOptions(k, words) == Ok(o)
    ensures AllWords(number + [head] + words)
    ensures ParseTokens(k, number + [head] + words, verify) == Ok(New(k).(options := o, lineNumber := n))
  {
    var rest := [head] + words;
    var tokens := number + rest;
    assert tokens == number + [head] + words;
    assert AllWords(tokens) && forall i :: 0 <= i < |tokens| ==> !IsMarker(tokens[i]) by {
      forall i | 0 <= i < |tokens|
        ensures IsWord(tokens[i]) && !IsMarker(tokens[i])
      {
        if i > |number| {
          assert tokens[i] == words[i - |number| - 1];
        } else if i == |number| {
          assert tokens[i] == head;
        } else {
          assert tokens[i] == number[i];
        }
      }
    }
    assert rest[|rest| - 1][0] != '*' by {
      if |words| > 0 {
        assert rest[|rest| - 1] == words[|words| - 1];
      }
    }
    FrameWords(k, number, rest, n);
    assert rest[1..] == words;
  }

  /** The class and option shape of a printable command are recovered from its words. */
  lemma ParseWords(c: Command, verify: bool, withLineNumber: bool)
    requires Printable(c)
    ensures AllWords(NumberWords(c, withLineNumber) + [c.kind.Name()] + OptionWords(c.options))
    ensures ParseTokens(c.kind, NumberWords(c, withLineNumber) + [c.kind.Name()] + OptionWords(c.options), verify)
         == Ok(New(c.kind).(options := c.options,
                            lineNumber := if withLineNumber then c.lineNumber else None))
  {
    var words := OptionWords(c.options);
    assert AllWords(words) && (forall i :: 0 <= i < |words| ==> 'A' <= words[i][0] <= 'Z')
        && ParseOptions(c.kind, words) == Ok(c.options)
    by {
      OptionWordsFacts(c);
    }
    NameIsWord(c.kind);
    ParseClean(c.kind, NumberWords(c, withLineNumber), c.kind.Name(), words,
               if withLineNumber then c.lineNumber else None, c.options, verify);
  }

  /** Round trip through `identifyLine`: reading back `line(False)` of a
      printable command gives a fresh command of the same class with the same options. */
  lemma IdentifyLineRoundTrip(c: Command)
    requires Printable(c)
    ensures Identify(Line(c, false)) == Ok(Some(New(c.kind).(options := c.options)))
  {
    LineWords(c, false);
    ParseWords(c, true, false);
    NameIsWord(c.kind);
    LookupName(c.kind);
    assert NumberWords(c, false) == [];
    var ts := [c.kind.Name()] + OptionWords(c.options);
    assert [] + [c.kind.Name()] + OptionWords(c.options) == ts;
    assert Split(Line(c, false)) == ts;
    assert ts[0] == c.kind.Name();
  }

  /** Round trip through the constructor: `line(True)` keeps the line number
      too, and the class's constructor reads it back as an integer. */
  lemma ConstructLineRoundTrip(c: Command, verify: bool)
    requires Printable(c)
    ensures Construct(c.kind, Line(c, true), verify)
         == Ok(New(c.kind).(options := c.options, lineNumber := c.lineNumber))
  {
    LineWords(c, true);
    ParseWords(c, verify, true);
    NameIsWord(c.kind);
    assert |Line(c, true)| > 0;
  }

  lemma TextLineWords(k: Kind, text: string)
    requires k.Decl().FreeText?
    ensures Split(Line(SetText(New(k), text), false)) == [k.Name()] + Split(text)
  {
    var name := k.Name();
    NameIsWord(k);
    assert Line(SetText(New(k), text), false) == name + (" " + text);
    SplitWordThen(name, " " + text);
    SplitSkipsSpace(" " + text);
    assert (" " + text)[1..] == text;
  }

  lemma ParseText(k: Kind, ts: seq<string>)
    requires k.Decl().FreeText?
    requires AllWords(ts)
    requires forall i :: 0 <= i < |ts| ==> !IsMarker(ts[i])
    requires |ts| > 0 ==> ts[|ts| - 1][0] != '*'
    ensures AllWords([k.Name()] + ts)
    ensures ParseTokens(k, [k.Name()] + ts, true) == Ok(New(k).(options := Tokens(ts)))
  {
    NameIsWord(k);
    assert [] + [k.Name()] + ts == [k.Name()] + ts;
    assert ParseOptions(k, ts) == Ok(Tokens(ts));
    ParseClean(k, [], k.Name(), ts, None, Tokens(ts), true);
  }

  /** A free-text command reads back with its text as the token list
      `str.split()` makes of it, provided no token of the text looks like a
      comment marker or a trailing checksum. */
  lemma IdentifyTextRoundTrip(k: Kind, text: string)
    requires k.Decl().FreeText?
    requires forall i :: 0 <= i < |Split(text)| ==> !IsMarker(Split(text)[i])
    requires |Split(text)| > 0 ==> Split(text)[|Split(text)| - 1][0] != '*'
    ensures Identify(Line(SetText(New(k), text), false)) == Ok(Some(New(k).(options := Tokens(Split(text)))))
  {
    TextLineWords(k, text);
    ParseText(k, Split(text));
    NameIsWord(k);
    LookupName(k);
  }

}

=== FILE: strings.dfy ===
/** String handling the command model relies on: Python's `str.split()`
    (split on runs of whitespace), `str.split("\n")`, `str.find`, and the
    decimal conversions `str(int)` and `int(str)`. */
module Strings {

  import opened Results

  /** The characters for which Python's `str.isspace()` holds; `str.split()`
      with no argument splits on runs of these. */
  predicate IsSpace(c: char) {
    var n := c as int;
    || n == 0x20
    || 0x09 <= n <= 0x0D
    || 0x1C <= n <= 0x1F
    || n == 0x85
    || n == 0xA0
    || n == 0x1680
    || 0x2000 <= n <= 0x200A
    || n == 0x2028
    || n == 0x2029
    || n == 0x202F
    || n == 0x205F
    || n == 0x3000
  }

  predicate SpaceFree(s: string) {
    forall i :: 0 <= i < |s| ==> !IsSpace(s[i])
  }

  /** A token `str.split()` can produce: non-empty, without whitespace. */
  predicate IsWord(w: string) {
    |w| > 0 && SpaceFree(w)
  }

  predicate AllWords(ts: seq<string>) {
    forall i :: 0 <= i < |ts| ==> IsWord(ts[i])
  }

  /** The end of the run of non-whitespace characters that starts at `i`. */
  function WordEnd(s: string, i: nat): (n: nat)
    requires i <= |s|
    ensures i <= n <= |s|
    ensures forall j :: i <= j < n ==> !IsSpace(s[j])
    ensures n == |s| || IsSpace(s[n])
    decreases |s| - i
  {
    if i == |s| || IsSpace(s[i]) then i else WordEnd(s, i + 1)
  }

  /** Python's `s.split()`: the maximal runs of non-whitespace characters, in order. */
  function Split(s: string): (ts: seq<string>)
    ensures AllWords(ts)
    decreases |s|
  {
    if |s| == 0 then []
    else if IsSpace(s[0]) then Split(s[1..])
    else
      var n := WordEnd(s, 1);
      [s[..n]] + Split(s[n..])
  }

  /** Each word preceded by one space: the shape `line()` gives its suffixes. */
  function Spaced(ts: seq<string>): string {
    if |ts| == 0 then "" else " " + ts[0] + Spaced(ts[1..])
  }

  lemma SplitSkipsSpace(s: string)
    requires |s| > 0 && IsSpace(s[0])
    ensures Split(s) == Split(s[1..])
  {
  }

  /** A word followed by nothing or by whitespace splits off as one token. */
  lemma SplitWordThen(w: string, rest: string)
    requires IsWord(w)
    requires rest == [] || IsSpace(rest[0])
    ensures Split(w + rest) == [w] + Split(rest)
  {
    var s := w + rest;
    assert s[0] == w[0];
    var n := WordEnd(s, 1);
    assert forall j :: 0 <= j < |w| ==> s[j] == w[j];
    assert |w| == |s| || IsSpace(s[|w|]);
    assert n == |w|;
    assert s[..n] == w;
    assert s[n..] == rest;
  }

  /** Joining words with single leading spaces and splitting again gives the words back. */
  lemma {:induction false} SplitSpaced(ts: seq<string>)
    requires AllWords(ts)
    ensures Split(Spaced(ts)) == ts
    decreases |ts|
  {
    if |ts| > 0 {
      var tail := Spaced(ts[1..]);
      var s := " " + ts[0] + tail;
      assert Spaced(ts) == s;
      SplitSkipsSpace(s);
      assert s[1..] == ts[0] + tail;
      assert tail == [] || IsSpace(tail[0]);
      SplitWordThen(ts[0], tail);
      SplitSpaced(ts[1..]);
      assert [ts[0]] + ts[1..] == ts;
    }
  }

  lemma {:induction false} SpacedConcat(a: seq<string>, b: seq<string>)
    ensures Spaced(a + b) == Spaced(a) + Spaced(b)
    decreases |a|
  {
    if |a| > 0 {
      assert (a + b)[1..] == a[1..] + b;
      SpacedConcat(a[1..], b);
    } else {
      assert a + b == b;
    }
  }

  /** Words joined by single spaces split back into the same words. */
  lemma SplitJoined(ts: seq<string>)
    requires AllWords(ts) && |ts| > 0
    ensures Split(Spaced(ts)[1..]) == ts
  {
    SplitSpaced(ts);
    SplitSkipsSpace(Spaced(ts));
  }

  /** A head word followed by spaced words splits back into the words. */
  lemma SplitHead(head: string, words: seq<string>)
    requires IsWord(head) && AllWords(words)
    ensures Split(head + Spaced(words)) == [head] + words
  {
    var tail := Spaced(words);
    assert tail == [] || IsSpace(tail[0]);
    SplitWordThen(head, tail);
    SplitSpaced(words);
  }

  /** A word and one space split off that word ahead of the rest. */
  lemma SplitWordSpace(w: string, rest: string)
    requires IsWord(w)
    ensures Split((w + " ") + rest) == [w] + Split(rest)
  {
    var r := " " + rest;
    assert (w + " ") + rest == w + r;
    SplitWordThen(w, r);
    SplitSkipsSpace(r);
    assert r[1..] == rest;
  }

  lemma SplitNumbered(first: string, head: string, words: seq<string>)
    requires IsWord(first) && IsWord(head) && AllWords(words)
    ensures Split((first + " ") + (head + Spaced(words))) == [first, head] + words
  {
    var hs := head + Spaced(words);
    SplitWordSpace(first, hs);
    SplitHead(head, words);
    ConsPair(first, head, words);
  }

  lemma ConsPair<T>(a: T, b: T, s: seq<T>)
    ensures [a] + ([b] + s) == [a, b] + s
  {
    assert ([a] + ([b] + s))[..2] == [a, b];
  }

  /** A line made of an optional leading word and a space, a head word, and
      spaced words splits back into those words. */
  lemma SplitPrefixed(prefix: string, pre: seq<string>, head: string, words: seq<string>)
    requires |pre| <= 1
    requires prefix == if |pre| == 1 then pre[0] + " " else ""
    requires IsWord(head) && AllWords(pre) && AllWords(words)
    ensures Split(prefix + (head + Spaced(words))) == pre + [head] + words
  {
    var rest := head + Spaced(words);
    if |pre| == 1 {
      assert pre == [pre[0]];
      SplitNumbered(pre[0], head, words);
    } else {
      assert pre == [] && prefix == [];
      assert prefix + rest == rest;
      SplitHead(head, words);
    }
  }

  /** `s.find(c)` / `s.index(c)` for an element known to occur in `s`. */
  /** The first occurrence is at `p` when nothing before `p` equals `c`. */
  lemma {:induction false} FirstIndexAt<T>(s: seq<T>, c: T, p: nat)
    requires p < |s| && s[p] == c
    requires forall j :: 0 <= j < p ==> s[j] != c
    ensures FirstIndex(s, c) == p
  {
    var q := FirstIndex(s, c);
    assert p <= q;
    assert forall j :: 0 <= j < q ==> s[..q][j] == s[j];
  }

  function FirstIndex<T(==)>(s: seq<T>, c: T): (i: nat)
    requires c in s
    ensures i < |s| && s[i] == c
    ensures c !in s[..i]
  {
    if s[0] == c then 0
    else
      var j := FirstIndex(s[1..], c);
      assert s[..1 + j] == [s[0]] + s[1..][..j];
      1 + j
  }

  /** The inverse of `SplitOn`: `sep.join(ps)`. */
  function JoinOn(ps: seq<string>, sep: char): string {
    if |ps| == 0 then ""
    else if |ps| == 1 then ps[0]
    else ps[0] + [sep] + JoinOn(ps[1..], sep)
  }

  /** Python's `s.split(sep)` for a one-character separator: empty pieces are kept. */
  function SplitOn(s: string, sep: char): (ps: seq<string>)
    ensures |ps| > 0
    ensures forall i :: 0 <= i < |ps| ==> sep !in ps[i]
    ensures JoinOn(ps, sep) == s
    decreases |s|
  {
    if sep !in s then [s]
    else
      var i := FirstIndex(s, sep);
      var rest := SplitOn(s[i + 1..], sep);
      assert s == s[..i] + [sep] + s[i + 1..];
      [s[..i]] + rest
  }

  predicate IsDigit(c: char) {
    '0' <= c <= '9'
  }

  predicate AllDigits(s: string) {
    forall i :: 0 <= i < |s| ==> IsDigit(s[i])
  }

  /** Decimal digits without a superfluous leading zero: what `str(n)` prints for `n >= 0`. */
  predicate Canonical(s: string) {
    |s| > 0 && AllDigits(s) && (s[0] != '0' || |s| == 1)
  }

  function DigitValue(c: char): nat
    requires IsDigit(c)
  {
    c as int - '0' as int
  }

  /** The number a string of decimal digits denotes. */
  function DigitsValue(s: string): nat
    requires AllDigits(s)
  {
    if |s| == 0 then 0 else DigitsValue(s[..|s| - 1]) * 10 + DigitValue(s[|s| - 1])
  }

  /** `str(n)` for a natural number. */
  function NatToString(n: nat): (s: string)
    ensures Canonical(s)
    ensures DigitsValue(s) == n
  {
    var d := [('0' as int + n % 10) as char];
    if n < 10 then d
    else
      var p := NatToString(n / 10);
      assert (p + d)[..|p + d| - 1] == p;
      p + d
  }

  /** `str(n)` for any integer. */
  function IntToString(n: int): (s: string)
    ensures ParseInt(s) == Some(n)
    ensures IsWord(s) && '.' !in s
  {
    if n < 0 then
      var t := NatToString(-n);
      assert ("-" + t)[1..] == t;
      "-" + t
    else NatToString(n)
  }

  /** Python's `int(s)` on a token: an optional sign followed by decimal digits,
      leading zeros allowed; `None` where Python raises `ValueError`. */
  function ParseInt(s: string): (r: Option<int>)
    ensures r.Some? <==> (|s| > 0 && AllDigits(s)) || (|s| > 1 && (s[0] == '-' || s[0] == '+') && AllDigits(s[1..]))
    ensures |s| > 0 && AllDigits(s) ==> r == Some(DigitsValue(s))
    ensures r.Some? && s[0] == '-' ==> r.value <= 0
    ensures r.Some? && s[0] != '-' ==> r.value >= 0
  {
    if |s| > 0 && (s[0] == '-' || s[0] == '+') then
      if |s| > 1 && AllDigits(s[1..]) then
        var v: int := DigitsValue(s[1..]);
        Some(if s[0] == '-' then -v else v)
      else None
    else if |s| > 0 && AllDigits(s) then Some(DigitsValue(s))
    else None
  }

  lemma {:induction false} LeadingDigitPositive(s: string)
    requires |s| > 0 && AllDigits(s) && s[0] != '0'
    ensures DigitsValue(s) > 0
    decreases |s|
  {
    if |s| > 1 {
      LeadingDigitPositive(s[..|s| - 1]);
    }
  }

  /** A canonical digit string is the one `str` prints for its value. */
  lemma {:induction false} CanonicalUnique(s: string)
    requires Canonical(s)
    ensures NatToString(DigitsValue(s)) == s
    decreases |s|
  {
    if |s| > 1 {
      var p := s[..|s| - 1];
      var d := s[|s| - 1];
      LeadingDigitPositive(p);
      CanonicalUnique(p);
      var v := DigitsValue(s);
      assert v == DigitsValue(p) * 10 + DigitValue(d);
      assert v / 10 == DigitsValue(p) && v % 10 == DigitValue(d);
      assert s == p + [d];
    }
  }

}

=== FILE: transport.dfy ===
/** The line framing of `WifiConnectionFactory`: `send` terminates a payload
    with a newline unless it already holds one, and `receiveLine` cuts the
    receive buffer at its first newline. The socket itself is not modelled:
    sent payloads are collected, and received text arrives as an argument. */
module Transport {

  import opened Results
  import opened Strings

  /** `send(data)`: the bytes handed to the socket. A newline is appended
      only when the payload contains none anywhere. */
  function Frame(data: string): (f: string)
    ensures '\n' in f
    ensures |f| >= |data| && f[..|data|] == data
    ensures '\n' in data <==> f == data
    ensures '\n' !in data <==> f == data + "\n"
  {
    if '\n' in data then data else data + "\n"
  }

  /** `receiveLine` after `receive()` returned `chunk`: the text before the
      first newline of the buffer, which keeps what follows; or nothing, with
      the chunk appended to the buffer. */
  function ReceiveLine(buffer: string, chunk: string): (r: (Option<string>, string))
    ensures r.0.None? <==> '\n' !in buffer + chunk
    ensures r.0.None? ==> r.1 == buffer + chunk
    ensures r.0.Some? ==> '\n' !in r.0.value && buffer + chunk == r.0.value + "\n" + r.1
  {
    var b := buffer + chunk;
    if '\n' in b then
      var i := FirstIndex(b, '\n');
      assert b == b[..i] + "\n" + b[i + 1..];
      (Some(b[..i]), b[i + 1..])
    else (None, b)
  }

  /** The split `receiveLine` makes is the only one with a newline-free line:
      whatever the buffer holds after a newline stays in the buffer. */
  lemma ReceiveLineUnique(buffer: string, chunk: string, line: string, rest: string)
    requires '\n' !in line
    requires buffer + chunk == line + "\n" + rest
    ensures ReceiveLine(buffer, chunk) == (Some(line), rest)
  {
    var b := buffer + chunk;
    var r := ReceiveLine(buffer, chunk);
    var l := r.0.value;
    assert |l| == |line| by {
      assert forall j :: 0 <= j < |line| ==> b[j] == line[j];
      assert forall j :: 0 <= j < |l| ==> b[j] == l[j];
      assert b[|l|] == '\n' && b[|line|] == '\n';
    }
    assert l == b[..|l|] == line;
    assert r.1 == b[|l| + 1..] == rest;
  }

  /** A newline-free payload sent by one side is read back whole by the other,
      and the receive buffer is left as it was before. */
  lemma SendThenReceive(data: string, buffer: string)
    requires '\n' !in data && '\n' !in buffer
    ensures ReceiveLine(buffer, Frame(data)) == (Some(buffer + data), "")
  {
    assert buffer + Frame(data) == (buffer + data) + "\n" + "";
    assert '\n' !in buffer + data;
    ReceiveLineUnique(buffer, Frame(data), buffer + data, "");
  }

}
